=== FILE: README.md ===
# CV analysis and editor history, in Dafny

This project models three parts of a CV-building web application:

- **The CV scoring engine.** It rates each of the six CV sections from 0 to 100: personal information, summary, experience, education, skills and projects. It collects strengths, weaknesses and suggestions. It combines the section scores into a weighted overall score. It also reports which professional, technical and role-specific keywords the CV text mentions or lacks.
- **The editor store.** It holds:
  - the document being edited;
  - an undo history of at most 50 snapshots, and an index into it;
  - the actions that load, clear and edit the document, and that undo, redo and reset the history.
- **The undo/redo keyboard hook.** It derives `canUndo` and `canRedo` from the store. It decides which command a key press triggers: Ctrl/Cmd+Z, Ctrl/Cmd+Shift+Z or Ctrl/Cmd+Y.

Everything is modelled as immutable datatypes and pure functions. Each store action is a function from state to state.

Modules:

- `Wrappers`: `Option`.
- `Ints`: `Math.min` on integers.
- `Text`: the string operations the engine uses. These are ASCII lower-casing and whitespace, `includes`, the digit regular expression, `split(/\s+/).length`, and decimal rendering.
- `ListOps`: JavaScript array behaviour. This covers `slice` and `splice` index clamping, `filter` by index, array moves, and order-keeping splits.
- `CvContent`: the CV document and the `{ ...x, ...updates }` merge of partial records.
- `Keywords`: the keyword report.
- `CvAnalysis`: the section analysers, the overall score and the whole report.
- `CvEdits`: the content change made by each section mutator.
- `EditorStore`: the store state and its actions, and the invariant they keep.
- `StoreHistory`: what the history holds after a load and k edits.
- `HistoryFindings`: the undo/redo discrepancy, as written and corrected.
- `UndoRedoKeys`: the hook.

Modelling conventions:

- JavaScript truthiness of an optional string is "present and non-empty".
- The keyword report reads `JSON.stringify(cv).toLowerCase()`. The model takes that text as a parameter `cvText`.
- `Math.round` of the weighted average is the exact integer `(Σ wᵢ·sᵢ + 50) / 100`, with the weights in percent.
- Feedback messages are the constructors of `CvAnalysis.Message`. `CvAnalysis.Wording` gives each one's exact text, and the experience-count message carries its count.
- Timestamps are opaque integers.
- Reading past the end of the history (`undefined`) is "no document".

## Model

| member | source | states |
|---|---|---|
| Text.Lower | src/mastra/tools/cv-analysis-tool.ts:204 | `toLowerCase` keeps the length and maps each character to its lower-case form. |
| Text.ContainsIff | src/mastra/tools/cv-analysis-tool.ts:204 | `includes(p)` holds exactly when p occurs at some position of the text. |
| Text.NumberPatternIsDigitSearch | src/mastra/tools/cv-analysis-tool.ts:237-244 | The metric pattern `\d+%?` or `$\d+` matches a bullet exactly when the bullet contains a digit. |
| Text.SpaceRuns | src/mastra/tools/cv-analysis-tool.ts:189 | The number of whitespace runs is at most the length of the text. |
| Text.SpaceRunsAppend | src/mastra/tools/cv-analysis-tool.ts:189 | Whitespace runs of a concatenation add up, minus one when a run straddles the join. |
| Text.WordCountOfJoin | src/mastra/tools/cv-analysis-tool.ts:189 | `split(/\s+/).length` of n words joined by single spaces is n. |
| Text.DecimalRoundTrip | src/mastra/tools/cv-analysis-tool.ts:231 | The decimal text of n in the "N work experiences listed" message reads back as n. |
| CvContent.MergePersonalInfoLaws | src/lib/stores/cv-editor.store.ts:150-153 | Merging an empty partial record changes nothing. Merging the same update twice equals merging it once. A complete update replaces the record. |
| ListOps.RelIndex | src/lib/stores/cv-editor.store.ts:95 | A `slice`/`splice` position lies within the array. A position inside is kept. A negative one counts from the end. A position past the end clamps to the length, and one before the start clamps to 0. |
| ListOps.SliceTo | src/lib/stores/cv-editor.store.ts:95 | `slice(0, end)` is a prefix: exactly `end` long when end is within the array, the whole array past it. |
| ListOps.TakeOfAppend | src/mastra/tools/cv-analysis-tool.ts:397-407 | Truncating missing keywords plus role misses to 8 keeps the first 8 generic misses, or all of them first when there are fewer. |
| ListOps.DeleteAt | src/lib/stores/cv-editor.store.ts:207 | `filter((_, i) => i !== index)` drops exactly the element at the index and shifts the later ones down; an index outside the list removes nothing. |
| ListOps.DeleteAtSplits | src/lib/stores/cv-editor.store.ts:207 | Deleting position i leaves the elements before and after i, in order. Together with the removed element they make up the same multiset. |
| ListOps.Move | src/lib/stores/cv-editor.store.ts:218-220 | The `splice` move keeps length and multiset. It puts the moved element at the clamped target. The other elements keep their relative order. |
| ListOps.MoveWithinBounds | src/lib/stores/cv-editor.store.ts:218-220 | For in-range indices, the moved item lands exactly at `to`. Removing it there gives the list with `from` removed, and the move is a permutation. |
| ListOps.InterleavingSharesOut | src/mastra/tools/cv-analysis-tool.ts:392-393 | An order-keeping split shares the list's elements out between its two parts. |
| Keywords.PresentIn | src/mastra/tools/cv-analysis-tool.ts:392 | Every present keyword is mentioned in the text and comes from the list. |
| Keywords.MissingFrom | src/mastra/tools/cv-analysis-tool.ts:393 | Every missing keyword is absent from the text and comes from the list. |
| Keywords.PresentAndMissingSplitTheList | src/mastra/tools/cv-analysis-tool.ts:392-393 | Together the two filters split the keyword list in order: each keyword is either present or missing. |
| Keywords.RoleSpecificKeywords | src/mastra/tools/cv-analysis-tool.ts:411-426 | The role list is one of the five six-keyword families. It is empty exactly when no family marker occurs in the lower-cased role. |
| Keywords.RoleFamilyPrecedence | src/mastra/tools/cv-analysis-tool.ts:411-426 | Each family's markers select that family's list, in either spelling ("frontend"/"front-end", "backend"/"back-end", "fullstack"/"full-stack", "devops", "data"). This holds unless an earlier family in that order is also named. |
| Keywords.RoleKeywordsFor | src/mastra/tools/cv-analysis-tool.ts:396-397 | A missing or empty target role adds no role keywords. |
| Keywords.AnalyzeKeywords | src/mastra/tools/cv-analysis-tool.ts:374-409 | Over the 22 generic keywords: present keywords are the first 10 mentioned. At most 8 missing ones are listed, all absent. Without a role, these are the first 8 generic misses. With 8 or more generic misses, the list is the first 8 of them, so role misses are dropped. With fewer, the target role's family misses fill the remaining places. |
| Keywords.KeywordReport | src/mastra/tools/cv-analysis-tool.ts:390-408 | Present keywords are the first min(10, n) mentioned ones, in order. At most 8 are reported missing, all absent from the text. Generic misses come before role misses. With fewer than 8 generic misses, the role misses fill the remaining places. Without a role, the result is the first 8 generic misses. |
| CvAnalysis.AnalyzePersonalInfo | src/mastra/tools/cv-analysis-tool.ts:150-174 | The score is 50 plus 15/10/10/10/5 for email, phone, location, LinkedIn and website, and lies in [50, 100]. It is 100 exactly when all five are present. A missing LinkedIn is the only weakness and the only suggestion. The strengths are exactly "LinkedIn included" when LinkedIn is given, then "website included" when the website is. |
| CvAnalysis.PersonalInfoMonotone | src/mastra/tools/cv-analysis-tool.ts:156-173 | Filling in a contact field never lowers the score. |
| CvAnalysis.AnalyzeSummary | src/mastra/tools/cv-analysis-tool.ts:176-213 | A missing or blank summary scores 0 with one weakness and one suggestion. Otherwise the score is 40, plus 40 for 30-80 words, plus 20 for an action verb. Brief and long summaries each get their weakness. The action-verb strength appears exactly when an action verb is present. |
| CvAnalysis.SummaryFeedback | src/mastra/tools/cv-analysis-tool.ts:188-210 | For a present summary, the strengths are exactly: the balanced-length one for 30-80 words, then the action-verb one. The suggestions are exactly: expand (under 30 words) or condense (over 80), then use action verbs when none occurs. |
| CvAnalysis.QuantifiedCount | src/mastra/tools/cv-analysis-tool.ts:235-245 | Quantified bullets never outnumber bullets. |
| CvAnalysis.CountBullets | src/mastra/tools/cv-analysis-tool.ts:235-245 | The two nested `forEach` loops compute the total and the quantified bullet counts. |
| CvAnalysis.AnalyzeExperience | src/mastra/tools/cv-analysis-tool.ts:215-269 | No positions scores 0 with its weakness and suggestion. Otherwise the score is 30, plus 20 for two or more positions, plus 20 for at least 3 bullets per position, plus 30 when at least half the bullets are quantified or 15 when some are; it lies in [30, 100]. |
| CvAnalysis.ExperienceWeaknesses | src/mastra/tools/cv-analysis-tool.ts:248-266 | With at least one position, the weaknesses are exactly "few bullets" when there are fewer than 3 per position, then "lack metrics" when no bullet has a metric, in that order. |
| CvAnalysis.ExperienceStrengths | src/mastra/tools/cv-analysis-tool.ts:226-262 | With at least one position, the strengths are exactly: the position count for two or more, then good bullets for at least 3 per position, then well quantified when at least half the bullets carry a metric. |
| CvAnalysis.ExperienceSuggestions | src/mastra/tools/cv-analysis-tool.ts:243-266 | With at least one position, the suggestions are exactly: add bullets when there are fewer than 3 per position, then quantify when no bullet has a metric, or add more metrics when some but under half do. |
| CvAnalysis.HalfQuantifiedPosition | src/mastra/tools/cv-analysis-tool.ts:249-262 | One position with the bullets "Increased revenue by 20%" and "Helped team" scores 60: too few bullets, but half of them quantified. |
| CvAnalysis.EducationEntries | src/mastra/tools/cv-analysis-tool.ts:285-294 | The per-entry loop adds 10 for each GPA and 15 for each entry with achievements. It pushes one strength for each. |
| CvAnalysis.EducationEntriesStrengths | src/mastra/tools/cv-analysis-tool.ts:285-294 | The loop appends, entry by entry, the GPA strength and then the achievements strength, after the strengths already collected. |
| CvAnalysis.GpaCountZero | src/mastra/tools/cv-analysis-tool.ts:296 | No GPA is counted exactly when no entry has one. |
| CvAnalysis.AnalyzeEducation | src/mastra/tools/cv-analysis-tool.ts:271-301 | No entries scores 0 with its weakness. Otherwise the score is min(100, 60 + 10·GPAs + 15·entries with achievements). The GPA suggestion appears exactly when no entry has a GPA. |
| CvAnalysis.EducationFeedbackStrengths | src/mastra/tools/cv-analysis-tool.ts:283-294 | With at least one entry, the strengths are exactly the per-entry GPA and achievements strengths, in entry order. |
| CvAnalysis.EducationMonotone | src/mastra/tools/cv-analysis-tool.ts:283-300 | Listing more education never lowers the education score. |
| CvAnalysis.AnalyzeSkills | src/mastra/tools/cv-analysis-tool.ts:303-335 | The score by skill count is 0 / 40 / 80 / 100 / 60 for 0 / 1-4 / 5-8 / 9-15 / over 15 skills. Strengths and weaknesses depend on the count. The categorise suggestion appears exactly for more than 8 skills. |
| CvAnalysis.SkillsSuggestions | src/mastra/tools/cv-analysis-tool.ts:311-332 | The suggestions are exactly: add skills for none. Otherwise add more for under 5 or focus for over 15, then categorise for over 8. |
| CvAnalysis.UrlCountZero | src/mastra/tools/cv-analysis-tool.ts:367 | No URL is counted exactly when no project has one. |
| CvAnalysis.AnalyzeProjects | src/mastra/tools/cv-analysis-tool.ts:337-372 | No projects scores 60 with one suggestion. Otherwise the score is min(100, 70 + 15 for two or more + 5 per URL, technologies or highlights), with no weaknesses. The URL suggestion appears exactly when no project has a URL. |
| CvAnalysis.ProjectBonusCounts | src/mastra/tools/cv-analysis-tool.ts:355-365 | The per-project loop adds 5 per project with a URL, 5 per project with technologies and 5 per project with highlights. |
| CvAnalysis.ProjectsMonotone | src/mastra/tools/cv-analysis-tool.ts:343-371 | Adding projects never lowers the projects score, including when the list starts empty. |
| CvAnalysis.OverallScore | src/mastra/tools/cv-analysis-tool.ts:127-135 | The overall score is the weighted average rounded to the nearest integer (within half a point), and lies in [0, 100] when every section does. |
| CvAnalysis.UniformSectionsScoreThemselves | src/mastra/tools/cv-analysis-tool.ts:128-135 | The weights sum to 100%, so equal section scores v give v overall. |
| CvAnalysis.OverallMonotone | src/mastra/tools/cv-analysis-tool.ts:128-135 | Raising any section score never lowers the overall score. |
| CvAnalysis.AnalyzeCV | src/mastra/tools/cv-analysis-tool.ts:96-148 | Section scores are the six analysers' scores, each in [0, 100]. The overall score is their rounded weighted average, also in [0, 100]. Feedback is each section's feedback concatenated in section order. The keyword report is the one `analyzeKeywords` builds for the text and target role, with lists bounded by 10 and 8. |
| CvAnalysis.OnlyPersonalInfoScores | src/mastra/tools/cv-analysis-tool.ts:96-148 | A CV with only personal information scores p, 0, 0, 0, 0, 60 by section, where p is its personal-information score. Its overall score is (10·p + 950) / 100: 14 for a bare name and 16 with an email. |
| CvAnalysis.EmptySectionsWeaknesses | src/mastra/tools/cv-analysis-tool.ts:176-372 | Empty summary, experience, education and skills sections each report their one weakness. An empty project list reports none. |
| CvEdits.UpdateItem | src/lib/stores/cv-editor.store.ts:189-190 | Writing a merged entry at an index changes only that entry. |
| CvEdits.SetSkill | src/lib/stores/cv-editor.store.ts:307-308 | `skills[index] = skill` replaces inside the list and appends at index `length`. Other skills are unchanged. |
| CvEdits.DeleteItem | src/lib/stores/cv-editor.store.ts:207 | Deleting an in-range index removes exactly that entry, keeping the rest in order. An out-of-range index leaves the list as it is. |
| CvEdits.EditContent | src/lib/stores/cv-editor.store.ts:146-388 | Every section mutator leaves all other sections of the document unchanged. |
| CvEdits.ExperienceEdits | src/lib/stores/cv-editor.store.ts:172-228 | Add appends. Update merges the patch into one entry and keeps the others. Delete removes one entry, keeping order. Reorder is a permutation that moves the entry to `to` and keeps the others in order. An index naming no entry changes nothing. Other mutators leave the list alone. |
| CvEdits.EducationEdits | src/lib/stores/cv-editor.store.ts:231-288 | The same four effects on the education list. |
| CvEdits.SkillEdits | src/lib/stores/cv-editor.store.ts:290-330 | Add appends. `updateSkill` overwrites position i and keeps the others, or appends when i is the length. Delete removes one skill, keeping order. |
| CvEdits.ProjectEdits | src/lib/stores/cv-editor.store.ts:332-388 | The same four effects on the project list. |
| CvEdits.EditEffects | src/lib/stores/cv-editor.store.ts:146-388 | For every mutator, the document it installs shows that mutator's effect. `updatePersonalInfo` merges the patch over the current details. `updateSummary` installs the new summary. The list mutators act as the four list lemmas state. |
| EditorStore.KeptHistory | src/lib/stores/cv-editor.store.ts:95-98 | The new history is the history up to the index, then the new entry. |
| EditorStore.PushToHistory | src/lib/stores/cv-editor.store.ts:88-108 | Without a document nothing changes. Otherwise the store keeps `Valid`: its length is min(index + 2, 50), and it holds the newest entries of the truncated history plus the replaced document. The index goes to the newest entry, which is the pre-edit document, and the new document becomes current. |
| EditorStore.LoadCV | src/lib/stores/cv-editor.store.ts:126-133 | Loading installs the document and id, with history `[content]`, index 0 and not loading. The save time is left unchanged. |
| EditorStore.ClearCV | src/lib/stores/cv-editor.store.ts:136-143 | Clearing leaves no document, no id, an empty history, index -1 and no save time. |
| EditorStore.ClearPersistedState | src/lib/stores/cv-editor.store.ts:430-437 | Clearing the persisted state is the same reset as `clearCV`. |
| EditorStore.ApplyEdit | src/lib/stores/cv-editor.store.ts:146-388 | A mutator without a document does nothing. With one, the installed document is the edit applied to the current one (`CvEdits.EditContent`), only the edited section changes, the replaced document is the newest snapshot, redo is unavailable, and `Valid` is kept. The history is the kept prefix `history[..index + 1]` plus the replaced document, trimmed to the newest 50. The document id, save time and loading and saving flags are unchanged. |
| EditorStore.Undo | src/lib/stores/cv-editor.store.ts:391-397 | Undo does nothing at index ≤ 0. Otherwise it steps the index back and shows that snapshot. The history, document id, save time and loading and saving flags are never modified, and `Valid` is kept. |
| EditorStore.Redo | src/lib/stores/cv-editor.store.ts:400-406 | Redo does nothing at the newest snapshot. Otherwise it steps the index forward and shows that snapshot. The history, document id, save time and loading and saving flags are never modified, and `Valid` is kept. |
| EditorStore.ClearHistory | src/lib/stores/cv-editor.store.ts:409-415 | With a document, the history becomes `[cv]` at index 0, so neither undo nor redo can act. Without one, nothing changes. The document, its id, save time and loading and saving flags are kept. |
| EditorStore.Step | src/lib/stores/cv-editor.store.ts:113-438 | Every store action keeps `Valid`. `setSaving` and `setLastSavedAt` write only their own field. |
| EditorStore.ReachableStatesAreValid | src/lib/stores/cv-editor.store.ts:116-123 | The initial state is valid, and so is every state reached from it: at most 50 snapshots, with the index inside the history. |
| StoreHistory.HistoryAfterEdits | src/lib/stores/cv-editor.store.ts:95-107 | After a load of D0 and k edits, the history is the newest min(k+1, 50) entries of `[D0, D0, D1, …, D(k-1)]`, with the index on the last entry and Dk current. |
| StoreHistory.UndoAfterEdits | src/lib/stores/cv-editor.store.ts:391-406 | In a state `HistoryAfterEdits` describes, after k ≥ 1 edits, undo shows D(k-2) (D0 for k ≤ 2). Redo after it shows D(k-1), not the current Dk. |
| HistoryFindings.RedoAfterUndoLosesEdit | src/lib/stores/cv-editor.store.ts:95-107 | As written, redo after undo after any edit shows the pre-edit document, never the edit's result unless the two are equal. |
| HistoryFindings.RedoScenarioShowsOldName | __tests__/lib/stores/cv-editor.store.test.ts:305-325 | In the test's scenario (load John Doe, rename to Jane Doe, undo, redo), the store as written shows "John Doe" where the test expects "Jane Doe". |
| HistoryFindings.UndoSkipsFirstSummaryEdit | src/lib/stores/cv-editor.store.ts:159-169 | As written, summary edits "A" then "B" followed by one undo go back to the loaded document, skipping "A". |
| HistoryFindings.PushToHistoryFixed | src/lib/stores/cv-editor.store.ts:88-108 | The corrected push records the new document as the newest snapshot, keeps `Valid` and the 50-entry cap, and keeps the previous current snapshot just before it. |
| HistoryFindings.StepFixed | src/lib/stores/cv-editor.store.ts:113-438 | With the corrected push, every action keeps `Consistent`: valid, with the snapshot under the index equal to the current document. |
| HistoryFindings.ReachableStatesAreConsistent | src/lib/stores/cv-editor.store.ts:116-123 | With the corrected push, every reachable state is consistent. |
| HistoryFindings.UndoRedoRoundTripFixed | __tests__/lib/stores/cv-editor.store.test.ts:305-325 | With the corrected push, undo after an edit shows the previous document, and redo then restores both the edit and the whole state. |
| HistoryFindings.RedoUndoesUndo | src/lib/stores/cv-editor.store.ts:391-406 | On a consistent state where undo can act, redo after undo gives back the same state. |
| UndoRedoKeys.AvailabilityMatchesGuards | src/hooks/use-undo-redo.ts:25-27 | `canUndo` and `canRedo` are exactly the negations of the store's no-op guards. Undo (redo) changes the state exactly when it is reported available. |
| UndoRedoKeys.KeyCommands | src/hooks/use-undo-redo.ts:30-50 | Nothing happens without Ctrl or Cmd. `z` without Shift undoes when undo is available. Shift with `z`/`Z`, or `y`, redoes when redo is available. A key press triggers at most one command. |
| UndoRedoKeys.HandleKeyDown | src/hooks/use-undo-redo.ts:23-50 | The key handler moves the index by at most one and never changes the history or validity. It is exactly `undo` for Ctrl+Z and exactly `redo` for Ctrl+Shift+Z/Z and Ctrl+Y. Any key event that issues no command, such as Ctrl+S, leaves the state unchanged. |

## Left out

- The tool wrapper (`createTool`, the input and output schemas, the async `execute`, src/mastra/tools/cv-analysis-tool.ts:24-94) is left out. It is framework plumbing around `analyzeCV`. The agent and example files are not part of this model.
- `JSON.stringify(cvContent).toLowerCase()` (src/mastra/tools/cv-analysis-tool.ts:376) is left out. The lower-cased text is a parameter of `Keywords.KeywordReport` and `CvAnalysis.AnalyzeCV`.
- Text.Lower: only ASCII letters are lower-cased, and `\s` and `trim` see only ASCII whitespace. Unicode case mapping and Unicode spaces are not modelled.
- CvAnalysis.OverallScore: uses exact arithmetic with half-up rounding. Floating-point rounding of the weighted sum could differ from it at an exact .5.
- The quantified-percentage test `(q / t) * 100 >= 50` (src/mastra/tools/cv-analysis-tool.ts:253-256) is taken as `2·q >= t`. This leaves out floating-point error in the division.
- Zustand's `create`, the `immer` draft mechanics and the `persist` middleware (src/lib/stores/cv-editor.store.ts:113-115, 439-442) are left out. So are localStorage I/O and rehydration of a stored state.
- `setSaving` and `setLastSavedAt` are modelled only as single field writes inside `EditorStore.Step`. Dates are integers.
- CvEdits.UpdateItem: an index outside the list leaves the list unchanged. The source assigns `list[index]` anyway, creating a hole or an extra key. The mutators only call it with an index inside the list.
- CvEdits.EditContent: `update*` with an index outside the list leaves the list unchanged. The source writes past the end or at a negative key, creating holes or a partial record.
- CvEdits.SetSkill: an index greater than the length, or negative, leaves the list unchanged. The source creates holes or a non-index property.
- ListOps.Move: when `fromIndex` removes nothing (at or past the end), the list is left unchanged. The source inserts `undefined`. Non-integer indices are not modelled.
- UndoRedoKeys.HandleKeyDown: the listener registration and cleanup (src/hooks/use-undo-redo.ts:52-58) and `preventDefault` are left out. The flags are read from the state the handler acts on, without modelling a stale closure between renders.
- The selector hooks in src/hooks/use-cv-editor.ts are not part of this model.

## Findings

| source | as written | input that shows it | evidently intended | confidence | as-written member | corrected member |
|---|---|---|---|---|---|---|
| src/lib/stores/cv-editor.store.ts:95-107 | `pushToHistory` appends the document being replaced (`state.cv`) and installs the new one only as current. The snapshot under the index is therefore the pre-edit document. | Load "John Doe", `updatePersonalInfo({ name: 'Jane Doe' })`, undo, redo: the name shown is "John Doe". The test at __tests__/lib/stores/cv-editor.store.test.ts:305-325 expects "Jane Doe". Also, summary "A" then "B" followed by one undo skips "A". | Append the new document, so that `history[historyIndex]` is always the current document, undo steps one version back, and redo restores the undone edit. | not executed | HistoryFindings.RedoAfterUndoLosesEdit | HistoryFindings.UndoRedoRoundTripFixed |

=== FILE: cv_analysis.dfy ===
/** The CV scoring engine: six section analyzers, each returning a score and
    the strengths, weaknesses and suggestions it pushes, a weighted overall
    score, and the keyword report. Every analyzer threads a running tally
    through the same steps, in the same order, as the scoring code. */
module CvAnalysis {
  import opened Wrappers
  import opened Ints
  import opened CvContent
  import Text
  import Keywords
  import ListOps

  /** The feedback messages the analyzers push, one constructor per text;
      `Wording` gives the text. */
  datatype Message =
    | LinkedInIncluded | MissingLinkedIn | AddLinkedIn | WebsiteIncluded
    | MissingSummary | AddSummary | BalancedSummary | BriefSummary | ExpandSummary
    | LongSummary | CondenseSummary | UsesActionVerbs | UseActionVerbs
    | NoExperience | AddWorkExperience | ExperiencesListed(count: nat) | GoodBullets | FewBullets
    | AddBullets | WellQuantified | AddMoreMetrics | LackMetrics | QuantifyAchievements
    | NoEducation | AddEducationalBackground | GpaIncluded | AchievementsHighlighted | ConsiderGpa
    | NoSkills | AddSkills | GoodSkillCount | TooFewSkills | AddMoreSkills | TooManySkills
    | FocusSkills | CategorizeSkills
    | AddProjects | MultipleProjects | AddProjectUrls

  /** The exact text of each message. */
  function Wording(m: Message): string {
    match m
    case LinkedInIncluded => "LinkedIn profile included"
    case MissingLinkedIn => "Missing LinkedIn profile"
    case AddLinkedIn => "Add your LinkedIn profile URL to increase professional credibility"
    case WebsiteIncluded => "Personal website/portfolio included"
    case MissingSummary => "Missing professional summary"
    case AddSummary => "Add a compelling 2-3 sentence summary highlighting your key strengths and career goals"
    case BalancedSummary => "Well-balanced summary length"
    case BriefSummary => "Summary is too brief"
    case ExpandSummary => "Expand your summary to 30-80 words for better impact"
    case LongSummary => "Summary is too long"
    case CondenseSummary => "Condense your summary to 30-80 words to maintain reader attention"
    case UsesActionVerbs => "Summary uses strong action verbs"
    case UseActionVerbs => "Use action verbs like \"led\", \"developed\", or \"achieved\" to make your summary more impactful"
    case NoExperience => "No work experience listed"
    case AddWorkExperience => "Add your work experience, including internships or relevant projects"
    case ExperiencesListed(n) => Text.DecimalString(n) + " work experiences listed"
    case GoodBullets => "Good number of achievement bullets per position"
    case FewBullets => "Few achievement bullets per position"
    case AddBullets => "Add 3-5 achievement bullets per position highlighting your impact"
    case WellQuantified => "Achievements are well-quantified with metrics"
    case AddMoreMetrics => "Add more quantifiable metrics (numbers, percentages, dollar amounts) to your achievements"
    case LackMetrics => "Achievements lack quantifiable metrics"
    case QuantifyAchievements => "Quantify your achievements with specific numbers, percentages, or results"
    case NoEducation => "No education listed"
    case AddEducationalBackground => "Add your educational background"
    case GpaIncluded => "GPA included in education"
    case AchievementsHighlighted => "Academic achievements highlighted"
    case ConsiderGpa => "Consider adding GPA if it's 3.5 or higher"
    case NoSkills => "No skills listed"
    case AddSkills => "Add relevant technical and soft skills"
    case GoodSkillCount => "Good number of skills listed"
    case TooFewSkills => "Too few skills listed"
    case AddMoreSkills => "Add more relevant skills (aim for 5-15 skills)"
    case TooManySkills => "Too many skills listed"
    case FocusSkills => "Focus on your strongest 10-15 skills to avoid overwhelming readers"
    case CategorizeSkills => "Consider organizing skills into categories (e.g., Programming Languages, Frameworks, Tools)"
    case AddProjects => "Add relevant projects to showcase your practical skills"
    case MultipleProjects => "Multiple projects showcased"
    case AddProjectUrls => "Add URLs or GitHub links to your projects"
  }

  /** Feedback pushed by an analyzer, in push order. */
  datatype Feedback = Feedback(strengths: seq<Message>, weaknesses: seq<Message>, suggestions: seq<Message>) {

    /** This feedback followed by the feedback of a later analyzer. */
    function Then(next: Feedback): Feedback {
      Feedback(strengths + next.strengths, weaknesses + next.weaknesses, suggestions + next.suggestions)
    }
  }

  const NoFeedback := Feedback([], [], [])

  /** A running section score and the feedback pushed so far. */
  datatype Tally = Tally(score: int, feedback: Feedback) {

    function Add(points: int): Tally {
      this.(score := score + points)
    }

    function Strength(m: Message): Tally {
      this.(feedback := feedback.(strengths := feedback.strengths + [m]))
    }

    function Weakness(m: Message): Tally {
      this.(feedback := feedback.(weaknesses := feedback.weaknesses + [m]))
    }

    function Suggestion(m: Message): Tally {
      this.(feedback := feedback.(suggestions := feedback.suggestions + [m]))
    }

    /** `Math.min(score, 100)`. */
    function Capped(): Tally {
      this.(score := Min(score, 100))
    }
  }

  /** `w` when the condition holds, otherwise nothing. */
  function Points(b: bool, w: int): int {
    if b then w else 0
  }

  // ---------------------------------------------------------------------
  // Personal information

  /** `analyzePersonalInfo`. */
  function AnalyzePersonalInfo(p: PersonalInfo): (r: Tally)
    ensures r.score == 50 + Points(p.email != "", 15) + Points(Truthy(p.phone), 10)
      + Points(Truthy(p.location), 10) + Points(Truthy(p.linkedin), 10) + Points(Truthy(p.website), 5)
    ensures 50 <= r.score <= 100
    ensures r.score == 100 <==>
      p.email != "" && Truthy(p.phone) && Truthy(p.location) && Truthy(p.linkedin) && Truthy(p.website)
    ensures r.feedback.weaknesses == if Truthy(p.linkedin) then [] else [MissingLinkedIn]
    ensures r.feedback.suggestions == if Truthy(p.linkedin) then [] else [AddLinkedIn]
    ensures r.feedback.strengths
      == (if Truthy(p.linkedin) then [LinkedInIncluded] else []) + (if Truthy(p.website) then [WebsiteIncluded] else [])
  {
    var t0 := Tally(50, NoFeedback);
    var t1 := if p.email != "" then t0.Add(15) else t0;
    var t2 := if Truthy(p.phone) then t1.Add(10) else t1;
    var t3 := if Truthy(p.location) then t2.Add(10) else t2;
    var t4 := if Truthy(p.linkedin) then t3.Add(10).Strength(LinkedInIncluded)
              else t3.Weakness(MissingLinkedIn).Suggestion(AddLinkedIn);
    var t5 := if Truthy(p.website) then t4.Add(5).Strength(WebsiteIncluded) else t4;
    ListOps.EmptyPrefix([LinkedInIncluded]);
    t5.Capped()
  }

  /** Filling in a missing contact field never lowers the score. */
  lemma PersonalInfoMonotone(p: PersonalInfo, q: PersonalInfo)
    requires p.email != "" ==> q.email != ""
    requires Truthy(p.phone) ==> Truthy(q.phone)
    requires Truthy(p.location) ==> Truthy(q.location)
    requires Truthy(p.linkedin) ==> Truthy(q.linkedin)
    requires Truthy(p.website) ==> Truthy(q.website)
    ensures AnalyzePersonalInfo(p).score <= AnalyzePersonalInfo(q).score
  {
  }

  // ---------------------------------------------------------------------
  // Summary

  const ActionWords: seq<string> := ["led", "developed", "managed", "created", "implemented", "achieved", "improved"]

  /** `!summary || summary.trim().length === 0`. */
  predicate SummaryMissing(summary: Option<string>) {
    summary.None? || Text.IsBlank(summary.value)
  }

  /** `actionWords.some(word => summary.toLowerCase().includes(word))`. */
  predicate HasActionWord(s: string) {
    exists i :: 0 <= i < |ActionWords| && Text.Contains(Text.Lower(s), ActionWords[i])
  }

  /** `analyzeSummary`; the word count is taken on the untrimmed text. */
  function AnalyzeSummary(summary: Option<string>): (r: Tally)
    ensures SummaryMissing(summary) ==>
      r.score == 0 && r.feedback == Feedback([], [MissingSummary], [AddSummary])
    ensures !SummaryMissing(summary) ==>
      var words := Text.WordCount(summary.value);
      && r.score == 40 + Points(30 <= words <= 80, 40) + Points(HasActionWord(summary.value), 20)
      && |r.feedback.weaknesses| == (if 30 <= words <= 80 then 0 else 1)
      && (words < 30 ==> r.feedback.weaknesses == [BriefSummary])
      && (words > 80 ==> r.feedback.weaknesses == [LongSummary])
      && (HasActionWord(summary.value) <==> UsesActionVerbs in r.feedback.strengths)
    ensures 0 <= r.score <= 100
    ensures !SummaryMissing(summary) <==> r.score >= 40
  {
    if SummaryMissing(summary) then
      Tally(0, NoFeedback).Weakness(MissingSummary).Suggestion(AddSummary)
    else
      var s := summary.value;
      var t0 := Tally(40, NoFeedback);
      var wordCount := Text.WordCount(s);
      var t1 := if wordCount >= 30 && wordCount <= 80 then t0.Add(40).Strength(BalancedSummary)
                else if wordCount < 30 then t0.Weakness(BriefSummary).Suggestion(ExpandSummary)
                else t0.Weakness(LongSummary).Suggestion(CondenseSummary);
      var t2 := if HasActionWord(s) then t1.Add(20).Strength(UsesActionVerbs)
                else t1.Suggestion(UseActionVerbs);
      t2.Capped()
  }

  /** For a present summary: the balanced-length strength exactly for 30 to
      80 words, then the action-verb strength; the expand or condense
      suggestion for a brief or long one, then the action-verb suggestion
      when no action word occurs. */
  lemma SummaryFeedback(summary: Option<string>)
    ensures !SummaryMissing(summary) ==>
      var words := Text.WordCount(summary.value);
      var acts := HasActionWord(summary.value);
      && AnalyzeSummary(summary).feedback.strengths
         == (if 30 <= words <= 80 then [BalancedSummary] else []) + (if acts then [UsesActionVerbs] else [])
      && AnalyzeSummary(summary).feedback.suggestions
         == (if words < 30 then [ExpandSummary] else if words > 80 then [CondenseSummary] else [])
            + (if acts then [] else [UseActionVerbs])
  {
  }

  // ---------------------------------------------------------------------
  // Experience

  /** A bullet passes `/\d+%?|\$\d+/.test(bullet)`. */
  predicate Quantified(bullet: string) {
    Text.MatchesNumberPattern(bullet)
  }

  /** Number of quantified bullets in a list, counted left to right. */
  function QuantifiedIn(bullets: seq<string>): (n: nat)
    ensures n <= |bullets|
    decreases |bullets|
  {
    if |bullets| == 0 then 0
    else QuantifiedIn(bullets[..|bullets| - 1]) + (if Quantified(bullets[|bullets| - 1]) then 1 else 0)
  }

  /** Total number of bullets over all positions. */
  function BulletCount(exps: seq<ExperienceItem>): nat
    decreases |exps|
  {
    if |exps| == 0 then 0
    else BulletCount(exps[..|exps| - 1]) + |exps[|exps| - 1].bullets|
  }

  /** Total number of quantified bullets over all positions. */
  function QuantifiedCount(exps: seq<ExperienceItem>): (n: nat)
    ensures n <= BulletCount(exps)
    decreases |exps|
  {
    if |exps| == 0 then 0
    else QuantifiedCount(exps[..|exps| - 1]) + QuantifiedIn(exps[|exps| - 1].bullets)
  }

  /** The two nested `forEach` loops that count bullets and quantified
      bullets. */
  method CountBullets(exps: seq<ExperienceItem>) returns (total: nat, quantified: nat)
    ensures total == BulletCount(exps)
    ensures quantified == QuantifiedCount(exps)
  {
    total, quantified := 0, 0;
    var i := 0;
    while i < |exps|
      invariant 0 <= i <= |exps|
      invariant total == BulletCount(exps[..i])
      invariant quantified == QuantifiedCount(exps[..i])
    {
      var bullets := exps[i].bullets;
      total := total + |bullets|;
      var j := 0;
      var inEntry := 0;
      while j < |bullets|
        invariant 0 <= j <= |bullets|
        invariant inEntry == QuantifiedIn(bullets[..j])
      {
        if Quantified(bullets[j]) {
          inEntry := inEntry + 1;
        }
        assert bullets[..j + 1][..j] == bullets[..j];
        j := j + 1;
      }
      assert bullets[..j] == bullets;
      quantified := quantified + inEntry;
      assert exps[..i + 1][..i] == exps[..i];
      i := i + 1;
    }
    assert exps[..i] == exps;
  }

  /** Quantified-bullet bonus: `(q / t) * 100 >= 50` earns 30, any other
      positive share 15, none 0. */
  function QuantificationPoints(quantified: nat, total: nat): int {
    if total > 0 && 2 * quantified >= total then 30
    else if total > 0 && quantified > 0 then 15
    else 0
  }

  /** The experience score the section promises for a non-empty list: 30,
      plus 20 for two or more positions, plus 20 for at least three bullets
      per position, plus 30 when at least half the bullets carry a metric or
      15 when some do. */
  function ExperienceFormula(exps: seq<ExperienceItem>): int {
    var n := |exps|;
    var total := BulletCount(exps);
    var q := QuantifiedCount(exps);
    30 + Points(n >= 2, 20) + Points(total >= 3 * n, 20)
    + (if 2 * q >= total && total > 0 then 30 else if q > 0 then 15 else 0)
  }

  /** `analyzeExperience`. */
  function AnalyzeExperience(exps: seq<ExperienceItem>): (r: Tally)
    ensures |exps| == 0 ==>
      r.score == 0 && r.feedback == Feedback([], [NoExperience], [AddWorkExperience])
    ensures |exps| > 0 ==> r.score == ExperienceFormula(exps)
    ensures |exps| > 0 ==> 30 <= r.score <= 100
    ensures 0 <= r.score <= 100
  {
    if |exps| == 0 then
      Tally(0, NoFeedback).Weakness(NoExperience).Suggestion(AddWorkExperience)
    else
      var n := |exps|;
      var t0 := Tally(30, NoFeedback);
      var t1 := if n >= 2 then t0.Add(20).Strength(ExperiencesListed(n)) else t0;
      var total := BulletCount(exps);
      var quantified := QuantifiedCount(exps);
      var t2 := if total >= n * 3 then t1.Add(20).Strength(GoodBullets)
                else t1.Weakness(FewBullets).Suggestion(AddBullets);
      var points := QuantificationPoints(quantified, total);
      var t3 := if points == 30 then t2.Add(30).Strength(WellQuantified)
                else if points == 15 then t2.Add(15).Suggestion(AddMoreMetrics)
                else t2.Weakness(LackMetrics).Suggestion(QuantifyAchievements);
      t3.Capped()
  }

  /** With at least one position the only possible weaknesses are too few
      bullets (fewer than three per position) and, after it, no metric in
      any bullet. */
  lemma ExperienceWeaknesses(exps: seq<ExperienceItem>)
    requires |exps| > 0
    ensures AnalyzeExperience(exps).feedback.weaknesses
      == (if BulletCount(exps) >= 3 * |exps| then [] else [FewBullets])
         + (if QuantifiedCount(exps) == 0 then [LackMetrics] else [])
  {
    var (t1, t2, t3) := ExperienceSteps(exps);
    assert AnalyzeExperience(exps).feedback == t3.feedback;
    var n := |exps|;
    var total := BulletCount(exps);
    QuantificationPointsCases(QuantifiedCount(exps), total);
    assert t1.feedback.weaknesses == [];
    ListOps.EmptyPrefix([FewBullets]);
    assert t2.feedback.weaknesses == if total >= 3 * n then [] else [FewBullets];
  }

  /** Which of the three metric bonuses applies, read off the counts. */
  lemma QuantificationPointsCases(q: nat, total: nat)
    requires q <= total
    ensures QuantificationPoints(q, total) == 0 <==> q == 0
    ensures QuantificationPoints(q, total) == 30 <==> total > 0 && 2 * q >= total
  {
  }

  /** The scoring steps of a non-empty experience list, as separate tallies:
      positions, then bullets per position, then metrics. */
  function ExperienceSteps(exps: seq<ExperienceItem>): (ts: (Tally, Tally, Tally))
    requires |exps| > 0
  {
    var n := |exps|;
    var total := BulletCount(exps);
    var points := QuantificationPoints(QuantifiedCount(exps), total);
    var t0 := Tally(30, NoFeedback);
    var t1 := if n >= 2 then t0.Add(20).Strength(ExperiencesListed(n)) else t0;
    var t2 := if total >= n * 3 then t1.Add(20).Strength(GoodBullets)
              else t1.Weakness(FewBullets).Suggestion(AddBullets);
    var t3 := if points == 30 then t2.Add(30).Strength(WellQuantified)
              else if points == 15 then t2.Add(15).Suggestion(AddMoreMetrics)
              else t2.Weakness(LackMetrics).Suggestion(QuantifyAchievements);
    (t1, t2, t3)
  }

  /** With at least one position the strengths are the position count (for
      two or more), then enough bullets (three per position), then well
      quantified (at least half the bullets carry a metric). */
  lemma ExperienceStrengths(exps: seq<ExperienceItem>)
    requires |exps| > 0
    ensures var n := |exps|; var total := BulletCount(exps); var q := QuantifiedCount(exps);
      AnalyzeExperience(exps).feedback.strengths
      == (if n >= 2 then [ExperiencesListed(n)] else [])
         + (if total >= 3 * n then [GoodBullets] else [])
         + (if total > 0 && 2 * q >= total then [WellQuantified] else [])
  {
    var (t1, t2, t3) := ExperienceSteps(exps);
    assert AnalyzeExperience(exps).feedback == t3.feedback;
    var n := |exps|;
    var total := BulletCount(exps);
    var q := QuantifiedCount(exps);
    QuantificationPointsCases(q, total);
    var s1 := if n >= 2 then [ExperiencesListed(n)] else [];
    var s2 := if total >= 3 * n then [GoodBullets] else [];
    ListOps.EmptyPrefix([ExperiencesListed(n)]);
    assert t1.feedback.strengths == s1;
    assert t2.feedback.strengths == s1 + s2;
  }

  /** With at least one position the suggestions are add bullets (fewer than
      three per position), then quantify (no metric at all) or add more
      metrics (some, but under half the bullets). */
  lemma ExperienceSuggestions(exps: seq<ExperienceItem>)
    requires |exps| > 0
    ensures var n := |exps|; var total := BulletCount(exps); var q := QuantifiedCount(exps);
      AnalyzeExperience(exps).feedback.suggestions
      == (if total >= 3 * n then [] else [AddBullets])
         + (if q == 0 then [QuantifyAchievements] else if 2 * q >= total then [] else [AddMoreMetrics])
  {
    var (t1, t2, t3) := ExperienceSteps(exps);
    assert AnalyzeExperience(exps).feedback == t3.feedback;
    var n := |exps|;
    var total := BulletCount(exps);
    var q := QuantifiedCount(exps);
    QuantificationPointsCases(q, total);
    assert t1.feedback.suggestions == [];
    ListOps.EmptyPrefix([AddBullets]);
    assert t2.feedback.suggestions == if total >= 3 * n then [] else [AddBullets];
  }

  // ---------------------------------------------------------------------
  // Education

  /** Entries whose GPA is given and non-empty. */
  function GpaCount(edus: seq<EducationItem>): (n: nat)
    ensures n <= |edus|
    decreases |edus|
  {
    if |edus| == 0 then 0 else Points(Truthy(edus[0].gpa), 1) + GpaCount(edus[1..])
  }

  /** Entries with at least one achievement. */
  function AchievementCount(edus: seq<EducationItem>): (n: nat)
    ensures n <= |edus|
    decreases |edus|
  {
    if |edus| == 0 then 0 else Points(|edus[0].achievements| > 0, 1) + AchievementCount(edus[1..])
  }

  /** One pass of the `forEach` over education entries. */
  function EducationEntry(t: Tally, edu: EducationItem): (r: Tally)
    ensures r.score == t.score + Points(Truthy(edu.gpa), 10) + Points(|edu.achievements| > 0, 15)
    ensures r.feedback == t.feedback.(strengths := t.feedback.strengths + EntryStrengths(edu))
  {
    var t1 := if Truthy(edu.gpa) then t.Add(10).Strength(GpaIncluded) else t;
    if |edu.achievements| > 0 then t1.Add(15).Strength(AchievementsHighlighted) else t1
  }

  /** The strengths the `forEach` pushes, entry by entry: the GPA one, then
      the achievements one. */
  function EducationStrengths(edus: seq<EducationItem>): (ms: seq<Message>)
    ensures |ms| == GpaCount(edus) + AchievementCount(edus)
    decreases |edus|
  {
    if |edus| == 0 then [] else EntryStrengths(edus[0]) + EducationStrengths(edus[1..])
  }

  /** The strengths one education entry contributes. */
  function EntryStrengths(edu: EducationItem): (ms: seq<Message>)
    ensures |ms| == Points(Truthy(edu.gpa), 1) + Points(|edu.achievements| > 0, 1)
  {
    (if Truthy(edu.gpa) then [GpaIncluded] else []) + (if |edu.achievements| > 0 then [AchievementsHighlighted] else [])
  }

  /** The `forEach` over education entries, from a given tally. */
  function EducationEntries(t: Tally, edus: seq<EducationItem>): (r: Tally)
    ensures r.score == t.score + 10 * GpaCount(edus) + 15 * AchievementCount(edus)
    ensures |r.feedback.strengths| == |t.feedback.strengths| + GpaCount(edus) + AchievementCount(edus)
    ensures r.feedback.weaknesses == t.feedback.weaknesses
    ensures r.feedback.suggestions == t.feedback.suggestions
    decreases |edus|
  {
    if |edus| == 0 then t else EducationEntries(EducationEntry(t, edus[0]), edus[1..])
  }

  /** The loop appends each entry's strengths, in entry order, after the
      ones already collected. */
  lemma {:induction false} EducationEntriesStrengths(t: Tally, edus: seq<EducationItem>)
    ensures EducationEntries(t, edus).feedback.strengths == t.feedback.strengths + EducationStrengths(edus)
    decreases |edus|
  {
    if |edus| == 0 {
      assert t.feedback.strengths + [] == t.feedback.strengths;
    } else {
      var t1 := EducationEntry(t, edus[0]);
      EducationEntriesStrengths(t1, edus[1..]);
      var first := EntryStrengths(edus[0]);
      assert (t.feedback.strengths + first) + EducationStrengths(edus[1..])
        == t.feedback.strengths + (first + EducationStrengths(edus[1..]));
    }
  }

  /** `education.some(edu => edu.gpa)`. */
  predicate SomeGpa(edus: seq<EducationItem>) {
    exists i :: 0 <= i < |edus| && Truthy(edus[i].gpa)
  }

  /** The counted GPAs are zero exactly when no entry has one. */
  lemma {:induction false} GpaCountZero(edus: seq<EducationItem>)
    ensures GpaCount(edus) == 0 <==> !SomeGpa(edus)
    decreases |edus|
  {
    if |edus| > 0 {
      GpaCountZero(edus[1..]);
      if SomeGpa(edus[1..]) {
        var i :| 0 <= i < |edus[1..]| && Truthy(edus[1..][i].gpa);
        assert Truthy(edus[i + 1].gpa);
      }
      if SomeGpa(edus) && !Truthy(edus[0].gpa) {
        var i :| 0 <= i < |edus| && Truthy(edus[i].gpa);
        assert Truthy(edus[1..][i - 1].gpa);
      }
    }
  }

  /** The education score the section promises for a non-empty list: 60,
      plus 10 per entry with a GPA and 15 per entry with achievements, capped
      at 100. */
  function EducationFormula(edus: seq<EducationItem>): int {
    Min(100, 60 + 10 * GpaCount(edus) + 15 * AchievementCount(edus))
  }

  /** `analyzeEducation`. */
  function AnalyzeEducation(edus: seq<EducationItem>): (r: Tally)
    ensures |edus| == 0 ==>
      r.score == 0 && r.feedback == Feedback([], [NoEducation], [AddEducationalBackground])
    ensures |edus| > 0 ==> r.score == EducationFormula(edus)
    ensures |edus| > 0 ==> 60 <= r.score <= 100 && r.feedback.weaknesses == []
    ensures |edus| > 0 ==>
      r.feedback.suggestions == (if SomeGpa(edus) then [] else [ConsiderGpa])
    ensures 0 <= r.score <= 100
  {
    if |edus| == 0 then
      Tally(0, NoFeedback).Weakness(NoEducation).Suggestion(AddEducationalBackground)
    else
      var t0 := EducationEntries(Tally(60, NoFeedback), edus);
      var t1 := if !SomeGpa(edus) then t0.Suggestion(ConsiderGpa) else t0;
      t1.Capped()
  }

  /** With at least one entry the strengths are exactly those the per-entry
      loop pushes, in entry order. */
  lemma EducationFeedbackStrengths(edus: seq<EducationItem>)
    requires |edus| > 0
    ensures AnalyzeEducation(edus).feedback.strengths == EducationStrengths(edus)
  {
    var t0 := EducationEntries(Tally(60, NoFeedback), edus);
    EducationEntriesStrengths(Tally(60, NoFeedback), edus);
    ListOps.EmptyPrefix(EducationStrengths(edus));
    var t1 := if !SomeGpa(edus) then t0.Suggestion(ConsiderGpa) else t0;
    assert AnalyzeEducation(edus) == t1.Capped();
  }

  lemma {:induction false} EducationCountsAppend(a: seq<EducationItem>, b: seq<EducationItem>)
    ensures GpaCount(a + b) == GpaCount(a) + GpaCount(b)
    ensures AchievementCount(a + b) == AchievementCount(a) + AchievementCount(b)
    decreases |a|
  {
    if |a| > 0 {
      EducationCountsAppend(a[1..], b);
      assert (a + b)[1..] == a[1..] + b;
    } else {
      assert a + b == b;
    }
  }

  /** Listing more education never lowers the education score. */
  lemma EducationMonotone(edus: seq<EducationItem>, more: seq<EducationItem>)
    ensures AnalyzeEducation(edus).score <= AnalyzeEducation(edus + more).score
  {
    EducationCountsAppend(edus, more);
  }

  // ---------------------------------------------------------------------
  // Skills

  /** `analyzeSkills`. The size bonus and the categorisation bonus stack, so
      the score is a step function of the count. */
  function AnalyzeSkills(skills: seq<string>): (r: Tally)
    ensures |skills| == 0 ==> r.score == 0
    ensures 1 <= |skills| <= 4 ==> r.score == 40
    ensures 5 <= |skills| <= 8 ==> r.score == 80
    ensures 9 <= |skills| <= 15 ==> r.score == 100
    ensures |skills| > 15 ==> r.score == 60
    ensures r.feedback.strengths == if 5 <= |skills| <= 15 then [GoodSkillCount] else []
    ensures r.feedback.weaknesses ==
      if |skills| == 0 then [NoSkills]
      else if |skills| < 5 then [TooFewSkills]
      else if |skills| > 15 then [TooManySkills]
      else []
    ensures (CategorizeSkills in r.feedback.suggestions) <==> |skills| > 8
  {
    var n := |skills|;
    if n == 0 then
      Tally(0, NoFeedback).Weakness(NoSkills).Suggestion(AddSkills)
    else
      var t0 := Tally(40, NoFeedback);
      var t1 := if n >= 5 && n <= 15 then t0.Add(40).Strength(GoodSkillCount)
                else if n < 5 then t0.Weakness(TooFewSkills).Suggestion(AddMoreSkills)
                else t0.Weakness(TooManySkills).Suggestion(FocusSkills);
      var t2 := if n > 8 then t1.Add(20).Suggestion(CategorizeSkills) else t1;
      t2.Capped()
  }

  /** The skills suggestions: add skills for none; otherwise add more (fewer
      than 5) or focus (more than 15), then categorise (more than 8). */
  lemma SkillsSuggestions(skills: seq<string>)
    ensures AnalyzeSkills(skills).feedback.suggestions ==
      if |skills| == 0 then [AddSkills]
      else (if |skills| < 5 then [AddMoreSkills] else if |skills| > 15 then [FocusSkills] else [])
           + (if |skills| > 8 then [CategorizeSkills] else [])
  {
  }

  // ---------------------------------------------------------------------
  // Projects

  /** Per-project bonus: 5 each for a URL, technologies and highlights. */
  function ProjectPoints(p: ProjectItem): int {
    Points(Truthy(p.url), 5) + Points(|p.technologies| > 0, 5) + Points(|p.highlights| > 0, 5)
  }

  /** Sum of the per-project bonuses, in list order. */
  function ProjectBonus(projects: seq<ProjectItem>): (b: nat)
    ensures b <= 15 * |projects|
    decreases |projects|
  {
    if |projects| == 0 then 0 else ProjectPoints(projects[0]) + ProjectBonus(projects[1..])
  }

  /** How many projects have a URL. */
  function UrlCount(projects: seq<ProjectItem>): (n: nat)
    ensures n <= |projects|
    decreases |projects|
  {
    if |projects| == 0 then 0 else Points(Truthy(projects[0].url), 1) + UrlCount(projects[1..])
  }

  /** `projects.some(p => p.url)`. */
  predicate SomeUrl(projects: seq<ProjectItem>) {
    exists i :: 0 <= i < |projects| && Truthy(projects[i].url)
  }

  lemma {:induction false} UrlCountZero(projects: seq<ProjectItem>)
    ensures UrlCount(projects) == 0 <==> !SomeUrl(projects)
    decreases |projects|
  {
    if |projects| > 0 {
      UrlCountZero(projects[1..]);
      if SomeUrl(projects[1..]) {
        var i :| 0 <= i < |projects[1..]| && Truthy(projects[1..][i].url);
        assert Truthy(projects[i + 1].url);
      }
      if SomeUrl(projects) && !Truthy(projects[0].url) {
        var i :| 0 <= i < |projects| && Truthy(projects[i].url);
        assert Truthy(projects[1..][i - 1].url);
      }
    }
  }

  /** How many projects list technologies. */
  function TechnologiesCount(projects: seq<ProjectItem>): (n: nat)
    ensures n <= |projects|
    decreases |projects|
  {
    if |projects| == 0 then 0 else Points(|projects[0].technologies| > 0, 1) + TechnologiesCount(projects[1..])
  }

  /** How many projects list highlights. */
  function HighlightsCount(projects: seq<ProjectItem>): (n: nat)
    ensures n <= |projects|
    decreases |projects|
  {
    if |projects| == 0 then 0 else Points(|projects[0].highlights| > 0, 1) + HighlightsCount(projects[1..])
  }

  /** The per-project loop adds 5 for every project with a URL, 5 for every
      one with technologies and 5 for every one with highlights. */
  lemma {:induction false} ProjectBonusCounts(projects: seq<ProjectItem>)
    ensures ProjectBonus(projects)
      == 5 * UrlCount(projects) + 5 * TechnologiesCount(projects) + 5 * HighlightsCount(projects)
    decreases |projects|
  {
    if |projects| > 0 {
      ProjectBonusCounts(projects[1..]);
    }
  }

  /** The projects score the section promises for a non-empty list: 70,
      plus 15 for two or more projects, plus 5 for each URL, technology list
      and highlight list, capped at 100. */
  function ProjectsFormula(projects: seq<ProjectItem>): int {
    Min(100, 70 + Points(|projects| >= 2, 15) + ProjectBonus(projects))
  }

  /** `analyzeProjects`. */
  function AnalyzeProjects(projects: seq<ProjectItem>): (r: Tally)
    ensures |projects| == 0 ==> r.score == 60 && r.feedback == Feedback([], [], [AddProjects])
    ensures |projects| > 0 ==> r.score == ProjectsFormula(projects)
    ensures |projects| > 0 ==>
      && 70 <= r.score <= 100
      && r.feedback.weaknesses == []
      && r.feedback.strengths == (if |projects| >= 2 then [MultipleProjects] else [])
      && r.feedback.suggestions == (if SomeUrl(projects) then [] else [AddProjectUrls])
  {
    if |projects| == 0 then
      Tally(60, NoFeedback).Suggestion(AddProjects)
    else
      var t0 := Tally(70, NoFeedback);
      var t1 := if |projects| >= 2 then t0.Add(15).Strength(MultipleProjects) else t0;
      var t2 := t1.Add(ProjectBonus(projects));
      var t3 := if !SomeUrl(projects) then t2.Suggestion(AddProjectUrls) else t2;
      t3.Capped()
  }

  lemma {:induction false} ProjectBonusAppend(a: seq<ProjectItem>, b: seq<ProjectItem>)
    ensures ProjectBonus(a + b) == ProjectBonus(a) + ProjectBonus(b)
    decreases |a|
  {
    if |a| > 0 {
      ProjectBonusAppend(a[1..], b);
      assert (a + b)[1..] == a[1..] + b;
    } else {
      assert a + b == b;
    }
  }

  /** Adding projects to a non-empty list never lowers the projects score. */
  lemma ProjectsMonotone(projects: seq<ProjectItem>, more: seq<ProjectItem>)
    ensures AnalyzeProjects(projects).score <= AnalyzeProjects(projects + more).score
  {
    ProjectBonusAppend(projects, more);
  }

  // ---------------------------------------------------------------------
  // Overall

  datatype SectionScores = SectionScores(
    personalInfo: int, summary: int, experience: int,
    education: int, skills: int, projects: int)

  /** Section weights in percent: 10, 15, 30, 15, 15, 15. */
  const PersonalInfoWeight := 10
  const SummaryWeight := 15
  const ExperienceWeight := 30
  const EducationWeight := 15
  const SkillsWeight := 15
  const ProjectsWeight := 15

  /** The weighted sum, scaled by 100. */
  function WeightedSum(s: SectionScores): int {
    PersonalInfoWeight * s.personalInfo + SummaryWeight * s.summary + ExperienceWeight * s.experience
    + EducationWeight * s.education + SkillsWeight * s.skills + ProjectsWeight * s.projects
  }

  predicate InRange(s: SectionScores) {
    && 0 <= s.personalInfo <= 100 && 0 <= s.summary <= 100 && 0 <= s.experience <= 100
    && 0 <= s.education <= 100 && 0 <= s.skills <= 100 && 0 <= s.projects <= 100
  }

  /** `Math.round` of the weighted average, in exact arithmetic. */
  function OverallScore(s: SectionScores): (r: int)
    ensures 100 * r - 50 <= WeightedSum(s) < 100 * r + 50
    ensures InRange(s) ==> 0 <= r <= 100
  {
    (WeightedSum(s) + 50) / 100
  }

  /** The weights add up to 100 percent, so a CV scoring v in every
      section scores v overall. */
  lemma UniformSectionsScoreThemselves(v: int)
    ensures PersonalInfoWeight + SummaryWeight + ExperienceWeight + EducationWeight + SkillsWeight + ProjectsWeight == 100
    ensures OverallScore(SectionScores(v, v, v, v, v, v)) == v
  {
  }

  /** Raising one section's score never lowers the overall score. */
  lemma OverallMonotone(s: SectionScores, t: SectionScores)
    requires s.personalInfo <= t.personalInfo && s.summary <= t.summary && s.experience <= t.experience
    requires s.education <= t.education && s.skills <= t.skills && s.projects <= t.projects
    ensures OverallScore(s) <= OverallScore(t)
  {
  }

  // ---------------------------------------------------------------------
  // Whole report

  datatype AnalysisResult = AnalysisResult(
    overallScore: int,
    strengths: seq<Message>,
    weaknesses: seq<Message>,
    suggestions: seq<Message>,
    keywordOptimization: Keywords.KeywordOptimization,
    sectionScores: SectionScores)

  /** `analyzeCV`. `cvText` stands for the lower-cased JSON rendering of the
      document, which only the keyword report reads. */
  function AnalyzeCV(cv: CVContent, cvText: string, targetRole: Option<string>): (r: AnalysisResult)
    ensures r.sectionScores == SectionScores(
      AnalyzePersonalInfo(cv.personalInfo).score, AnalyzeSummary(cv.summary).score,
      AnalyzeExperience(cv.experience).score, AnalyzeEducation(cv.education).score,
      AnalyzeSkills(cv.skills).score, AnalyzeProjects(cv.projects).score)
    ensures r.overallScore == OverallScore(r.sectionScores)
    ensures InRange(r.sectionScores)
    ensures 0 <= r.overallScore <= 100
    ensures r.sectionScores.personalInfo >= 50 && r.sectionScores.projects >= 60
    ensures var pi := AnalyzePersonalInfo(cv.personalInfo).feedback;
      var su := AnalyzeSummary(cv.summary).feedback;
      var ex := AnalyzeExperience(cv.experience).feedback;
      var ed := AnalyzeEducation(cv.education).feedback;
      var sk := AnalyzeSkills(cv.skills).feedback;
      var pr := AnalyzeProjects(cv.projects).feedback;
      && r.strengths == pi.strengths + su.strengths + ex.strengths + ed.strengths + sk.strengths + pr.strengths
      && r.weaknesses == pi.weaknesses + su.weaknesses + ex.weaknesses + ed.weaknesses + sk.weaknesses + pr.weaknesses
      && r.suggestions == pi.suggestions + su.suggestions + ex.suggestions + ed.suggestions + sk.suggestions + pr.suggestions
    ensures |r.keywordOptimization.presentKeywords| <= Keywords.PresentShown
    ensures |r.keywordOptimization.missingKeywords| <= Keywords.MissingShown
    ensures r.keywordOptimization == Keywords.AnalyzeKeywords(cvText, targetRole)
  {
    var pi := AnalyzePersonalInfo(cv.personalInfo);
    var su := AnalyzeSummary(cv.summary);
    var ex := AnalyzeExperience(cv.experience);
    var ed := AnalyzeEducation(cv.education);
    var sk := AnalyzeSkills(cv.skills);
    var pr := AnalyzeProjects(cv.projects);
    var scores := SectionScores(pi.score, su.score, ex.score, ed.score, sk.score, pr.score);
    var feedback := pi.feedback.Then(su.feedback).Then(ex.feedback).Then(ed.feedback)
                    .Then(sk.feedback).Then(pr.feedback);
    AnalysisResult(
      OverallScore(scores),
      feedback.strengths, feedback.weaknesses, feedback.suggestions,
      Keywords.AnalyzeKeywords(cvText, targetRole),
      scores)
  }

  /** A document whose sections other than personal information are empty. */
  predicate OnlyPersonalInfo(cv: CVContent) {
    cv.summary.None? && cv.experience == [] && cv.education == [] && cv.skills == [] && cv.projects == []
  }

  /** The empty sections' own scores: 0 each, except 60 for projects. */
  lemma EmptySectionsScores(cv: CVContent)
    requires OnlyPersonalInfo(cv)
    ensures AnalyzeSummary(cv.summary).score == 0
    ensures AnalyzeExperience(cv.experience).score == 0
    ensures AnalyzeEducation(cv.education).score == 0
    ensures AnalyzeSkills(cv.skills).score == 0
    ensures AnalyzeProjects(cv.projects).score == 60
  {
  }

  /** Such a document scores 0 on every section but personal information
      and projects (60 for an empty project list), so its overall score is
      the rounded (10 * personal + 900) / 100: 14 for a bare name, 16 with an
      email. */
  lemma OnlyPersonalInfoScores(cv: CVContent, cvText: string, targetRole: Option<string>)
    requires OnlyPersonalInfo(cv)
    ensures var r := AnalyzeCV(cv, cvText, targetRole); var p := AnalyzePersonalInfo(cv.personalInfo).score;
      && r.sectionScores == SectionScores(p, 0, 0, 0, 0, 60)
      && r.overallScore == (10 * p + 950) / 100
      && (p == 50 ==> r.overallScore == 14)
      && (p == 65 ==> r.overallScore == 16)
  {
    EmptySectionsScores(cv);
    var p := AnalyzePersonalInfo(cv.personalInfo).score;
    var scores := SectionScores(p, 0, 0, 0, 0, 60);
    var r := AnalyzeCV(cv, cvText, targetRole);
    assert r.sectionScores == scores;
    assert WeightedSum(scores) == 10 * p + 900;
    assert r.overallScore == OverallScore(scores);
  }

  /** The empty sections' own reports: one weakness each, except projects,
      whose empty list only draws a suggestion. With the section-order
      concatenation `AnalyzeCV` promises, the report of such a document lists
      its personal-information weaknesses followed by these four. */
  lemma EmptySectionsWeaknesses(cv: CVContent)
    requires OnlyPersonalInfo(cv)
    ensures AnalyzeSummary(cv.summary).feedback.weaknesses == [MissingSummary]
    ensures AnalyzeExperience(cv.experience).feedback.weaknesses == [NoExperience]
    ensures AnalyzeEducation(cv.education).feedback.weaknesses == [NoEducation]
    ensures AnalyzeSkills(cv.skills).feedback.weaknesses == [NoSkills]
    ensures AnalyzeProjects(cv.projects).feedback.weaknesses == []
  {
  }

  /** One position whose two bullets include one metric ("20%"): half the
      bullets are quantified, which earns the full 30, but two bullets for one
      position are too few, so the section scores 30 + 30 = 60. */
  lemma HalfQuantifiedPosition(x: ExperienceItem)
    requires x.bullets == ["Increased revenue by 20%", "Helped team"]
    ensures AnalyzeExperience([x]).score == 60
    ensures FewBullets in AnalyzeExperience([x]).feedback.weaknesses
    ensures WellQuantified in AnalyzeExperience([x]).feedback.strengths
  {
    var b := x.bullets;
    assert Text.NumberPatternAt(b[0], 21);
    assert Quantified(b[0]);
    Text.NumberPatternIsDigitSearch(b[1]);
    assert !Quantified(b[1]);
    assert QuantifiedIn(b) == 1 by {
      assert b[..1][..0] == [];
      assert b[..1] == [b[0]];
      assert QuantifiedIn(b[..1]) == 1;
    }
    assert [x][..0] == [];
    assert BulletCount([x]) == 2 && QuantifiedCount([x]) == 1;
  }
}

=== FILE: cv_content.dfy ===
/** The CV document edited by the store and scored by the analysis engine,
    and the partial records (`Partial<T>`) the store's update actions merge
    into it. */
module CvContent {
  import opened Wrappers

  datatype PersonalInfo = PersonalInfo(
    name: string,
    email: string,
    phone: Option<string>,
    location: Option<string>,
    linkedin: Option<string>,
    website: Option<string>)

  datatype ExperienceItem = ExperienceItem(
    id: string,
    company: string,
    role: string,
    location: Option<string>,
    startDate: string,
    endDate: Option<string>,
    current: bool,
    bullets: seq<string>)

  datatype EducationItem = EducationItem(
    id: string,
    institution: string,
    degree: string,
    field: string,
    location: Option<string>,
    startDate: string,
    endDate: Option<string>,
    gpa: Option<string>,
    achievements: seq<string>)

  datatype ProjectItem = ProjectItem(
    id: string,
    name: string,
    description: string,
    technologies: seq<string>,
    url: Option<string>,
    startDate: Option<string>,
    endDate: Option<string>,
    highlights: seq<string>)

  datatype CVContent = CVContent(
    personalInfo: PersonalInfo,
    summary: Option<string>,
    experience: seq<ExperienceItem>,
    education: seq<EducationItem>,
    skills: seq<string>,
    projects: seq<ProjectItem>)

  /** JavaScript truthiness of an optional string: present and non-empty. */
  predicate Truthy(s: Option<string>) {
    s.Some? && s.value != ""
  }

  /** One key of a `Partial<T>` object: None when the key is absent, so the
      spread keeps the old value; Some(v) when present, so v wins (v may
      itself be None for an optional field set to undefined). */
  function Override<T>(current: T, update: Option<T>): T {
    update.GetOr(current)
  }

  datatype PersonalInfoPatch = PersonalInfoPatch(
    name: Option<string>,
    email: Option<string>,
    phone: Option<Option<string>>,
    location: Option<Option<string>>,
    linkedin: Option<Option<string>>,
    website: Option<Option<string>>)

  datatype ExperiencePatch = ExperiencePatch(
    id: Option<string>,
    company: Option<string>,
    role: Option<string>,
    location: Option<Option<string>>,
    startDate: Option<string>,
    endDate: Option<Option<string>>,
    current: Option<bool>,
    bullets: Option<seq<string>>)

  datatype EducationPatch = EducationPatch(
    id: Option<string>,
    institution: Option<string>,
    degree: Option<string>,
    field: Option<string>,
    location: Option<Option<string>>,
    startDate: Option<string>,
    endDate: Option<Option<string>>,
    gpa: Option<Option<string>>,
    achievements: Option<seq<string>>)

  datatype ProjectPatch = ProjectPatch(
    id: Option<string>,
    name: Option<string>,
    description: Option<string>,
    technologies: Option<seq<string>>,
    url: Option<Option<string>>,
    startDate: Option<Option<string>>,
    endDate: Option<Option<string>>,
    highlights: Option<seq<string>>)

  /** `{ ...p, ...u }` for personal info. */
  function MergePersonalInfo(p: PersonalInfo, u: PersonalInfoPatch): PersonalInfo {
    PersonalInfo(
      Override(p.name, u.name),
      Override(p.email, u.email),
      Override(p.phone, u.phone),
      Override(p.location, u.location),
      Override(p.linkedin, u.linkedin),
      Override(p.website, u.website))
  }

  /** `{ ...x, ...u }` for an experience entry. */
  function MergeExperience(x: ExperienceItem, u: ExperiencePatch): ExperienceItem {
    ExperienceItem(
      Override(x.id, u.id),
      Override(x.company, u.company),
      Override(x.role, u.role),
      Override(x.location, u.location),
      Override(x.startDate, u.startDate),
      Override(x.endDate, u.endDate),
      Override(x.current, u.current),
      Override(x.bullets, u.bullets))
  }

  /** `{ ...x, ...u }` for an education entry. */
  function MergeEducation(x: EducationItem, u: EducationPatch): EducationItem {
    EducationItem(
      Override(x.id, u.id),
      Override(x.institution, u.institution),
      Override(x.degree, u.degree),
      Override(x.field, u.field),
      Override(x.location, u.location),
      Override(x.startDate, u.startDate),
      Override(x.endDate, u.endDate),
      Override(x.gpa, u.gpa),
      Override(x.achievements, u.achievements))
  }

  /** `{ ...x, ...u }` for a project entry. */
  function MergeProject(x: ProjectItem, u: ProjectPatch): ProjectItem {
    ProjectItem(
      Override(x.id, u.id),
      Override(x.name, u.name),
      Override(x.description, u.description),
      Override(x.technologies, u.technologies),
      Override(x.url, u.url),
      Override(x.startDate, u.startDate),
      Override(x.endDate, u.endDate),
      Override(x.highlights, u.highlights))
  }

  /** The patch that names a field set for every present key of a full record. */
  function PersonalInfoAsPatch(p: PersonalInfo): PersonalInfoPatch {
    PersonalInfoPatch(Some(p.name), Some(p.email), Some(p.phone), Some(p.location),
                      Some(p.linkedin), Some(p.website))
  }

  const NoPersonalInfoChange := PersonalInfoPatch(None, None, None, None, None, None)

  /** Merging an empty update changes nothing; merging the same update twice
      is the same as merging it once; a full update replaces the record. */
  lemma MergePersonalInfoLaws(p: PersonalInfo, u: PersonalInfoPatch, q: PersonalInfo)
    ensures MergePersonalInfo(p, NoPersonalInfoChange) == p
    ensures MergePersonalInfo(MergePersonalInfo(p, u), u) == MergePersonalInfo(p, u)
    ensures MergePersonalInfo(p, PersonalInfoAsPatch(q)) == q
  {
  }
}

=== FILE: cv_edits.dfy ===
/** The content changes behind the editor store's section mutators: each
    builds a new CV document from the current one, touching only its own
    section. */
module CvEdits {
  import opened Wrappers
  import opened CvContent
  import ListOps

  /** One section mutator and its arguments, named after the store action. */
  datatype Edit =
    | UpdatePersonalInfo(personalUpdates: PersonalInfoPatch)
    | UpdateSummary(summary: string)
    | AddExperience(experienceItem: ExperienceItem)
    | UpdateExperience(index: int, experienceUpdates: ExperiencePatch)
    | DeleteExperience(index: int)
    | ReorderExperience(fromIndex: int, toIndex: int)
    | AddEducation(educationItem: EducationItem)
    | UpdateEducation(index: int, educationUpdates: EducationPatch)
    | DeleteEducation(index: int)
    | ReorderEducation(fromIndex: int, toIndex: int)
    | AddSkill(skill: string)
    | UpdateSkill(index: int, skill: string)
    | DeleteSkill(index: int)
    | AddProject(projectItem: ProjectItem)
    | UpdateProject(index: int, projectUpdates: ProjectPatch)
    | DeleteProject(index: int)
    | ReorderProject(fromIndex: int, toIndex: int)

  datatype Section = PersonalInfoSection | SummarySection | ExperienceSection
                   | EducationSection | SkillsSection | ProjectsSection

  function SectionOf(e: Edit): Section {
    match e
    case UpdatePersonalInfo(_) => PersonalInfoSection
    case UpdateSummary(_) => SummarySection
    case AddExperience(_) => ExperienceSection
    case UpdateExperience(_, _) => ExperienceSection
    case DeleteExperience(_) => ExperienceSection
    case ReorderExperience(_, _) => ExperienceSection
    case AddEducation(_) => EducationSection
    case UpdateEducation(_, _) => EducationSection
    case DeleteEducation(_) => EducationSection
    case ReorderEducation(_, _) => EducationSection
    case AddSkill(_) => SkillsSection
    case UpdateSkill(_, _) => SkillsSection
    case DeleteSkill(_) => SkillsSection
    case AddProject(_) => ProjectsSection
    case UpdateProject(_, _) => ProjectsSection
    case DeleteProject(_) => ProjectsSection
    case ReorderProject(_, _) => ProjectsSection
  }

  /** a and b agree on every section other than s. */
  predicate AgreeOutside(a: CVContent, b: CVContent, s: Section) {
    && (s != PersonalInfoSection ==> a.personalInfo == b.personalInfo)
    && (s != SummarySection ==> a.summary == b.summary)
    && (s != ExperienceSection ==> a.experience == b.experience)
    && (s != EducationSection ==> a.education == b.education)
    && (s != SkillsSection ==> a.skills == b.skills)
    && (s != ProjectsSection ==> a.projects == b.projects)
  }

  /** `list[index] = { ...list[index], ...updates }` for an index inside the
      list; any other index leaves the list as it is. */
  function UpdateItem<T>(s: seq<T>, i: int, updated: T): (r: seq<T>)
    ensures |r| == |s|
    ensures 0 <= i < |s| ==> r[i] == updated
    ensures forall j :: 0 <= j < |s| && j != i ==> r[j] == s[j]
  {
    if 0 <= i < |s| then ListOps.ReplaceAt(s, i, updated) else s
  }

  /** `skills[index] = skill`: replaces inside the list and appends at
      index |skills|; other indices leave the list as it is. */
  function SetSkill(skills: seq<string>, i: int, skill: string): (r: seq<string>)
    ensures |r| == if i == |skills| then |skills| + 1 else |skills|
    ensures 0 <= i <= |skills| ==> r[i] == skill
    ensures forall j :: 0 <= j < |skills| && j != i ==> r[j] == skills[j]
  {
    if 0 <= i < |skills| then ListOps.ReplaceAt(skills, i, skill)
    else if i == |skills| then skills + [skill]
    else skills
  }

  /** `s.filter((_, j) => j !== i)`: the element at i taken out, or s
      itself when i names no element. */
  function DeleteItem<T>(s: seq<T>, i: int): (r: seq<T>)
    ensures 0 <= i < |s| ==> r == s[..i] + s[i + 1..] && multiset(r) + multiset{s[i]} == multiset(s)
    ensures !(0 <= i < |s|) ==> r == s
  {
    if 0 <= i < |s| then
      ListOps.DeleteAtSplits(s, i);
      ListOps.DeleteAt(s, i)
    else s
  }

  /** The experience list after an experience mutator (others leave it). */
  function EditExperience(xs: seq<ExperienceItem>, e: Edit): seq<ExperienceItem> {
    match e
    case AddExperience(x) => xs + [x]
    case UpdateExperience(i, u) =>
      if 0 <= i < |xs| then UpdateItem(xs, i, MergeExperience(xs[i], u)) else xs
    case DeleteExperience(i) => DeleteItem(xs, i)
    case ReorderExperience(f, t) => ListOps.Move(xs, f, t)
    case _ => xs
  }

  function EditEducation(xs: seq<EducationItem>, e: Edit): seq<EducationItem> {
    match e
    case AddEducation(x) => xs + [x]
    case UpdateEducation(i, u) =>
      if 0 <= i < |xs| then UpdateItem(xs, i, MergeEducation(xs[i], u)) else xs
    case DeleteEducation(i) => DeleteItem(xs, i)
    case ReorderEducation(f, t) => ListOps.Move(xs, f, t)
    case _ => xs
  }

  function EditSkills(xs: seq<string>, e: Edit): seq<string> {
    match e
    case AddSkill(x) => xs + [x]
    case UpdateSkill(i, x) => SetSkill(xs, i, x)
    case DeleteSkill(i) => DeleteItem(xs, i)
    case _ => xs
  }

  function EditProjects(xs: seq<ProjectItem>, e: Edit): seq<ProjectItem> {
    match e
    case AddProject(x) => xs + [x]
    case UpdateProject(i, u) =>
      if 0 <= i < |xs| then UpdateItem(xs, i, MergeProject(xs[i], u)) else xs
    case DeleteProject(i) => DeleteItem(xs, i)
    case ReorderProject(f, t) => ListOps.Move(xs, f, t)
    case _ => xs
  }

  /** The document a section mutator installs: only the edited section can
      differ from the current document. */
  function EditContent(cv: CVContent, e: Edit): (r: CVContent)
    ensures AgreeOutside(cv, r, SectionOf(e))
  {
    match SectionOf(e)
    case PersonalInfoSection => cv.(personalInfo := MergePersonalInfo(cv.personalInfo, e.personalUpdates))
    case SummarySection => cv.(summary := Some(e.summary))
    case ExperienceSection => cv.(experience := EditExperience(cv.experience, e))
    case EducationSection => cv.(education := EditEducation(cv.education, e))
    case SkillsSection => cv.(skills := EditSkills(cv.skills, e))
    case ProjectsSection => cv.(projects := EditProjects(cv.projects, e))
  }

  /** r is xs with position i holding v and every other position kept. */
  predicate ReplacedAt<T(==)>(xs: seq<T>, r: seq<T>, i: int, v: T) {
    && |r| == |xs|
    && 0 <= i < |r| && r[i] == v
    && (forall j :: 0 <= j < |xs| && j != i ==> r[j] == xs[j])
  }

  /** r is xs without the element at i, the rest in order; xs itself when i
      names no element. */
  predicate RemovedAt<T(==)>(xs: seq<T>, r: seq<T>, i: int) {
    if 0 <= i < |xs| then r == xs[..i] + xs[i + 1..] else r == xs
  }

  /** r is a permutation of xs; when both indices name elements, the one at
      `from` now sits at `to` and the others keep their order. */
  predicate MovedTo<T(==)>(xs: seq<T>, r: seq<T>, from: int, to: int) {
    && |r| == |xs|
    && multiset(r) == multiset(xs)
    && (0 <= from < |xs| && 0 <= to < |xs| ==>
          r[to] == xs[from] && ListOps.DeleteAt(r, to) == ListOps.DeleteAt(xs, from))
  }

  /** The experience mutators on the experience list. */
  lemma ExperienceEdits(xs: seq<ExperienceItem>, e: Edit)
    ensures SectionOf(e) != ExperienceSection ==> EditExperience(xs, e) == xs
    ensures e.AddExperience? ==> EditExperience(xs, e) == xs + [e.experienceItem]
    ensures var r := EditExperience(xs, e);
      e.UpdateExperience? ==>
        if 0 <= e.index < |xs| then ReplacedAt(xs, r, e.index, MergeExperience(xs[e.index], e.experienceUpdates))
        else r == xs
    ensures e.DeleteExperience? ==> RemovedAt(xs, EditExperience(xs, e), e.index)
    ensures e.ReorderExperience? ==> MovedTo(xs, EditExperience(xs, e), e.fromIndex, e.toIndex)
  {
    if e.ReorderExperience? && 0 <= e.fromIndex < |xs| && 0 <= e.toIndex < |xs| {
      ListOps.MoveWithinBounds(xs, e.fromIndex, e.toIndex);
    }
  }

  /** The education mutators on the education list. */
  lemma EducationEdits(xs: seq<EducationItem>, e: Edit)
    ensures SectionOf(e) != EducationSection ==> EditEducation(xs, e) == xs
    ensures e.AddEducation? ==> EditEducation(xs, e) == xs + [e.educationItem]
    ensures var r := EditEducation(xs, e);
      e.UpdateEducation? ==>
        if 0 <= e.index < |xs| then ReplacedAt(xs, r, e.index, MergeEducation(xs[e.index], e.educationUpdates))
        else r == xs
    ensures e.DeleteEducation? ==> RemovedAt(xs, EditEducation(xs, e), e.index)
    ensures e.ReorderEducation? ==> MovedTo(xs, EditEducation(xs, e), e.fromIndex, e.toIndex)
  {
    if e.ReorderEducation? && 0 <= e.fromIndex < |xs| && 0 <= e.toIndex < |xs| {
      ListOps.MoveWithinBounds(xs, e.fromIndex, e.toIndex);
    }
  }

  /** The skill mutators on the skill list; `updateSkill` at index |skills|
      appends. */
  lemma SkillEdits(xs: seq<string>, e: Edit)
    ensures SectionOf(e) != SkillsSection ==> EditSkills(xs, e) == xs
    ensures e.AddSkill? ==> EditSkills(xs, e) == xs + [e.skill]
    ensures var r := EditSkills(xs, e);
      e.UpdateSkill? ==>
        if 0 <= e.index < |xs| then ReplacedAt(xs, r, e.index, e.skill)
        else if e.index == |xs| then r == xs + [e.skill]
        else r == xs
    ensures e.DeleteSkill? ==> RemovedAt(xs, EditSkills(xs, e), e.index)
  {
    if e.UpdateSkill? && e.index == |xs| {
      assert EditSkills(xs, e) == xs + [e.skill];
    }
  }

  /** The project mutators on the project list. */
  lemma ProjectEdits(xs: seq<ProjectItem>, e: Edit)
    ensures SectionOf(e) != ProjectsSection ==> EditProjects(xs, e) == xs
    ensures e.AddProject? ==> EditProjects(xs, e) == xs + [e.projectItem]
    ensures var r := EditProjects(xs, e);
      e.UpdateProject? ==>
        if 0 <= e.index < |xs| then ReplacedAt(xs, r, e.index, MergeProject(xs[e.index], e.projectUpdates))
        else r == xs
    ensures e.DeleteProject? ==> RemovedAt(xs, EditProjects(xs, e), e.index)
    ensures e.ReorderProject? ==> MovedTo(xs, EditProjects(xs, e), e.fromIndex, e.toIndex)
  {
    if e.ReorderProject? && 0 <= e.fromIndex < |xs| && 0 <= e.toIndex < |xs| {
      ListOps.MoveWithinBounds(xs, e.fromIndex, e.toIndex);
    }
  }

  /** What every section mutator does to its section: add appends, update
      merges the patch into one entry (a skill is overwritten, or appended
      at index |skills|) and keeps the others, delete removes one entry
      keeping the order of the rest, reorder moves one entry; an index that
      names no entry leaves the list as it is. The personal-information
      patch is merged over the current details and the summary is replaced. */
  lemma EditEffects(cv: CVContent, e: Edit)
    ensures var r := EditContent(cv, e);
      e.UpdatePersonalInfo? ==> r.personalInfo == MergePersonalInfo(cv.personalInfo, e.personalUpdates)
    ensures e.UpdateSummary? ==> EditContent(cv, e).summary == Some(e.summary)
    // experience
    ensures e.AddExperience? ==> EditContent(cv, e).experience == cv.experience + [e.experienceItem]
    ensures var xs := cv.experience; var r := EditContent(cv, e).experience;
      e.UpdateExperience? ==>
        if 0 <= e.index < |xs| then ReplacedAt(xs, r, e.index, MergeExperience(xs[e.index], e.experienceUpdates))
        else r == xs
    ensures e.DeleteExperience? ==> RemovedAt(cv.experience, EditContent(cv, e).experience, e.index)
    ensures e.ReorderExperience? ==>
      MovedTo(cv.experience, EditContent(cv, e).experience, e.fromIndex, e.toIndex)
    // education
    ensures e.AddEducation? ==> EditContent(cv, e).education == cv.education + [e.educationItem]
    ensures var xs := cv.education; var r := EditContent(cv, e).education;
      e.UpdateEducation? ==>
        if 0 <= e.index < |xs| then ReplacedAt(xs, r, e.index, MergeEducation(xs[e.index], e.educationUpdates))
        else r == xs
    ensures e.DeleteEducation? ==> RemovedAt(cv.education, EditContent(cv, e).education, e.index)
    ensures e.ReorderEducation? ==>
      MovedTo(cv.education, EditContent(cv, e).education, e.fromIndex, e.toIndex)
    // skills
    ensures e.AddSkill? ==> EditContent(cv, e).skills == cv.skills + [e.skill]
    ensures var xs := cv.skills; var r := EditContent(cv, e).skills;
      e.UpdateSkill? ==>
        if 0 <= e.index < |xs| then ReplacedAt(xs, r, e.index, e.skill)
        else if e.index == |xs| then r == xs + [e.skill]
        else r == xs
    ensures e.DeleteSkill? ==> RemovedAt(cv.skills, EditContent(cv, e).skills, e.index)
    // projects
    ensures e.AddProject? ==> EditContent(cv, e).projects == cv.projects + [e.projectItem]
    ensures var xs := cv.projects; var r := EditContent(cv, e).projects;
      e.UpdateProject? ==>
        if 0 <= e.index < |xs| then ReplacedAt(xs, r, e.index, MergeProject(xs[e.index], e.projectUpdates))
        else r == xs
    ensures e.DeleteProject? ==> RemovedAt(cv.projects, EditContent(cv, e).projects, e.index)
    ensures e.ReorderProject? ==>
      MovedTo(cv.projects, EditContent(cv, e).projects, e.fromIndex, e.toIndex)
  {
    ExperienceEdits(cv.experience, e);
    EducationEdits(cv.education, e);
    SkillEdits(cv.skills, e);
    ProjectEdits(cv.projects, e);
  }
}

=== FILE: editor_store.dfy ===
/** The CV editor store: the document being edited, its id, save flags and
    the undo history, with every store action as a pure state transition. */
module EditorStore {
  import opened Wrappers
  import opened Ints
  import opened CvContent
  import opened CvEdits
  import ListOps

  /** At most this many snapshots are kept in the undo history. */
  const MaxHistorySize := 50

  /** The store state; timestamps are opaque integers. */
  datatype EditorState = EditorState(
    cv: Option<CVContent>,
    cvId: Option<string>,
    isLoading: bool,
    isSaving: bool,
    lastSavedAt: Option<int>,
    history: seq<CVContent>,
    historyIndex: int)

  const InitialState := EditorState(None, None, false, false, None, [], -1)

  /** The shape every reachable state has: without a document there is no
      history; with one, the history holds 1 to 50 snapshots and the index
      points into it. */
  predicate Valid(s: EditorState) {
    if s.cv.None? then s.history == [] && s.historyIndex == -1
    else 1 <= |s.history| <= MaxHistorySize && 0 <= s.historyIndex < |s.history|
  }

  /** The snapshot sequence `pushToHistory` builds: the history up to and
      including the current index, followed by `entry`. */
  function KeptHistory(s: EditorState, entry: CVContent): (r: seq<CVContent>)
    ensures Valid(s) && s.cv.Some? ==>
      |r| == s.historyIndex + 2 && r[..|r| - 1] == s.history[..s.historyIndex + 1] && r[|r| - 1] == entry
  {
    ListOps.SliceTo(s.history, s.historyIndex + 1) + [entry]
  }

  /** Keeps the newest `MaxHistorySize` entries of h by dropping the oldest. */
  function DropOldest(h: seq<CVContent>): (r: seq<CVContent>)
    ensures |h| <= MaxHistorySize ==> r == h
    ensures |h| == MaxHistorySize + 1 ==> r == h[1..]
  {
    if |h| > MaxHistorySize then h[1..] else h
  }

  /** r keeps s's document id, save time and loading and saving flags: the
      fields a history operation does not write. */
  predicate SameMetadata(s: EditorState, r: EditorState) {
    r.cvId == s.cvId && r.isLoading == s.isLoading && r.isSaving == s.isSaving && r.lastSavedAt == s.lastSavedAt
  }

  /** `pushToHistory(state, newContent)`: without a document nothing
      changes; otherwise the redo future is cut off, the CURRENT document is
      appended as the newest snapshot, the oldest snapshot is dropped past 50,
      the index moves to the newest snapshot and the new document becomes
      current. */
  function PushToHistory(s: EditorState, newContent: CVContent): (r: EditorState)
    ensures s.cv.None? ==> r == s
    ensures Valid(s) ==> Valid(r)
    ensures s.cv.Some? ==> r.cv == Some(newContent)
    ensures Valid(s) && s.cv.Some? ==>
      var kept := s.history[..s.historyIndex + 1] + [s.cv.value];
      && |r.history| == Min(s.historyIndex + 2, MaxHistorySize)
      && r.history == kept[|kept| - |r.history|..]
      && r.historyIndex == |r.history| - 1
      && r.history[r.historyIndex] == s.cv.value
    ensures SameMetadata(s, r)
  {
    if s.cv.None? then s
    else
      var h := DropOldest(KeptHistory(s, s.cv.value));
      s.(history := h, historyIndex := |h| - 1, cv := Some(newContent))
  }


  /** `loadCV(cvId, content)`: a fresh history holding only the document. */
  function LoadCV(s: EditorState, cvId: string, content: CVContent): (r: EditorState)
    ensures Valid(r)
    ensures r.cv == Some(content) && r.cvId == Some(cvId)
    ensures r.history == [content] && r.historyIndex == 0 && !r.isLoading
    ensures r.lastSavedAt == s.lastSavedAt && r.isSaving == s.isSaving
  {
    s.(cv := Some(content), cvId := Some(cvId), history := [content], historyIndex := 0, isLoading := false)
  }

  /** `clearCV`: no document, no history, no save time. */
  function ClearCV(s: EditorState): (r: EditorState)
    ensures Valid(r)
    ensures r.cv.None? && r.cvId.None? && r.history == [] && r.historyIndex == -1 && r.lastSavedAt.None?
    ensures r.isLoading == s.isLoading && r.isSaving == s.isSaving
  {
    s.(cv := None, cvId := None, history := [], historyIndex := -1, lastSavedAt := None)
  }

  /** `clearPersistedState`: the same reset as `clearCV`. */
  function ClearPersistedState(s: EditorState): (r: EditorState)
    ensures Valid(r)
    ensures r == ClearCV(s)
  {
    s.(cv := None, cvId := None, history := [], historyIndex := -1, lastSavedAt := None)
  }

  /** A section mutator: without a document nothing happens; otherwise the
      edited document is installed through `pushToHistory`, even when the
      edit leaves the document as it was (an out-of-range delete). */
  function ApplyEdit(s: EditorState, e: Edit): (r: EditorState)
    ensures s.cv.None? ==> r == s
    ensures Valid(s) ==> Valid(r)
    ensures s.cv.Some? ==> r.cv == Some(EditContent(s.cv.value, e))
    ensures s.cv.Some? ==> r.cv.Some? && AgreeOutside(s.cv.value, r.cv.value, SectionOf(e))
    ensures Valid(s) && s.cv.Some? ==>
      var kept := s.history[..s.historyIndex + 1] + [s.cv.value];
      && |r.history| == Min(s.historyIndex + 2, MaxHistorySize)
      && r.history == kept[|kept| - |r.history|..]
      && r.history[r.historyIndex] == s.cv.value && r.historyIndex == |r.history| - 1
    ensures SameMetadata(s, r)
  {
    if s.cv.None? then s else PushToHistory(s, EditContent(s.cv.value, e))
  }

  /** The snapshot at index i, or no document when i is outside the history
      (an `undefined` read). */
  function SnapshotAt(h: seq<CVContent>, i: int): (r: Option<CVContent>)
    ensures 0 <= i < |h| ==> r == Some(h[i])
    ensures !(0 <= i < |h|) ==> r.None?
  {
    if 0 <= i < |h| then Some(h[i]) else None
  }

  /** The index undo refuses to move from. */
  predicate AtOldest(s: EditorState) {
    s.historyIndex <= 0
  }

  /** The index redo refuses to move from. */
  predicate AtNewest(s: EditorState) {
    s.historyIndex >= |s.history| - 1
  }

  /** `undo`: one snapshot back, unless already at the oldest. */
  function Undo(s: EditorState): (r: EditorState)
    ensures AtOldest(s) ==> r == s
    ensures !AtOldest(s) ==> r.historyIndex == s.historyIndex - 1
    ensures Valid(s) && !AtOldest(s) ==> r.cv == Some(s.history[s.historyIndex - 1])
    ensures r.history == s.history && SameMetadata(s, r)
    ensures Valid(s) ==> Valid(r)
  {
    if AtOldest(s) then s
    else s.(historyIndex := s.historyIndex - 1, cv := SnapshotAt(s.history, s.historyIndex - 1))
  }

  /** `redo`: one snapshot forward, unless already at the newest. */
  function Redo(s: EditorState): (r: EditorState)
    ensures AtNewest(s) ==> r == s
    ensures !AtNewest(s) ==> r.historyIndex == s.historyIndex + 1
    ensures Valid(s) && !AtNewest(s) ==> r.cv == Some(s.history[s.historyIndex + 1])
    ensures r.history == s.history && SameMetadata(s, r)
    ensures Valid(s) ==> Valid(r)
  {
    if AtNewest(s) then s
    else s.(historyIndex := s.historyIndex + 1, cv := SnapshotAt(s.history, s.historyIndex + 1))
  }

  /** `clearHistory`: the current document becomes the only snapshot. */
  function ClearHistory(s: EditorState): (r: EditorState)
    ensures s.cv.None? ==> r == s
    ensures s.cv.Some? ==> r.history == [s.cv.value] && r.historyIndex == 0 && r.cv == s.cv
    ensures Valid(s) ==> Valid(r)
    ensures s.cv.Some? ==> AtOldest(r) && AtNewest(r)
    ensures SameMetadata(s, r)
  {
    if s.cv.None? then s else s.(history := [s.cv.value], historyIndex := 0)
  }

  /** The store actions. */
  datatype Action =
    | Load(id: string, content: CVContent)
    | Clear
    | ClearPersisted
    | Mutate(edit: Edit)
    | UndoStep
    | RedoStep
    | ClearHistoryStep
    | SetSaving(saving: bool)
    | SetLastSavedAt(date: int)

  /** One action applied to the store. */
  function Step(s: EditorState, a: Action): (r: EditorState)
    ensures Valid(s) ==> Valid(r)
    ensures a.SetSaving? ==> r == s.(isSaving := a.saving)
    ensures a.SetLastSavedAt? ==> r == s.(lastSavedAt := Some(a.date))
  {
    match a
    case Load(id, c) => LoadCV(s, id, c)
    case Clear => ClearCV(s)
    case ClearPersisted => ClearPersistedState(s)
    case Mutate(e) => ApplyEdit(s, e)
    case UndoStep => Undo(s)
    case RedoStep => Redo(s)
    case ClearHistoryStep => ClearHistory(s)
    case SetSaving(b) => s.(isSaving := b)
    case SetLastSavedAt(t) => s.(lastSavedAt := Some(t))
  }

  /** A sequence of actions applied in order. */
  function Run(s: EditorState, actions: seq<Action>): (r: EditorState)
    ensures Valid(s) ==> Valid(r)
    decreases |actions|
  {
    if |actions| == 0 then s else Run(Step(s, actions[0]), actions[1..])
  }

  /** Every state the store can reach from its initial state has the shape
      `Valid` describes. */
  lemma ReachableStatesAreValid(actions: seq<Action>)
    ensures Valid(Run(InitialState, actions))
    ensures Valid(InitialState)
  {
  }
}

=== FILE: history_findings.dfy ===
/** Undo/redo around an edit. As written, `pushToHistory` records the
    document an edit replaces rather than the one it installs, so right
    after an edit the snapshot under the index is the replaced document:
    redo after undo brings back that pre-edit document and the edit is lost,
    and from the second edit on undo skips a version. The corrected push
    records the installed document, which keeps `history[historyIndex]`
    equal to the current document and makes redo the inverse of undo. */
module HistoryFindings {
  import opened Wrappers
  import opened Ints
  import opened CvContent
  import opened CvEdits
  import opened EditorStore

  /** As written: after an edit, undo shows the snapshot that was under the
      index (not necessarily the document the edit replaced), and redo then
      shows the document from before the edit, whatever the edit installed. */
  lemma RedoAfterUndoLosesEdit(s: EditorState, d: CVContent)
    requires Valid(s) && s.cv.Some?
    ensures Undo(PushToHistory(s, d)).cv == Some(s.history[s.historyIndex])
    ensures Redo(Undo(PushToHistory(s, d))).cv == s.cv
    ensures d != s.cv.value ==> Redo(Undo(PushToHistory(s, d))).cv != Some(d)
  {
    var p := PushToHistory(s, d);
    assert |p.history| >= 2;
    assert p.history[|p.history| - 1] == s.cv.value;
    assert p.history[|p.history| - 2] == s.history[s.historyIndex];
  }

  const JohnDoe := CVContent(PersonalInfo("John Doe", "john@example.com", None, None, None, None), None, [], [], [], [])
  const RenameToJane := UpdatePersonalInfo(PersonalInfoPatch(Some("Jane Doe"), None, None, None, None, None))

  /** The store test that loads John Doe, renames him Jane Doe, undoes and
      redoes expects "Jane Doe"; as written the store shows "John Doe". */
  lemma RedoScenarioShowsOldName(s0: EditorState)
    ensures var edited := ApplyEdit(LoadCV(s0, "cv-123", JohnDoe), RenameToJane);
      && edited.cv.Some? && edited.cv.value.personalInfo.name == "Jane Doe"
      && Undo(edited).cv.Some? && Undo(edited).cv.value.personalInfo.name == "John Doe"
      && Redo(Undo(edited)).cv.Some? && Redo(Undo(edited)).cv.value.personalInfo.name == "John Doe"
  {
    var loaded := LoadCV(s0, "cv-123", JohnDoe);
    RedoAfterUndoLosesEdit(loaded, EditContent(JohnDoe, RenameToJane));
  }

  /** One summary edit after loading d0: d0 is recorded twice and the edited
      document is shown. */
  lemma OneSummaryEdit(s0: EditorState, d0: CVContent, text: string)
    ensures var e1 := ApplyEdit(LoadCV(s0, "cv", d0), UpdateSummary(text));
      && e1.history == [d0, d0] && e1.historyIndex == 1
      && e1.cv == Some(d0.(summary := Some(text)))
  {
    var loaded := LoadCV(s0, "cv", d0);
    assert EditContent(d0, UpdateSummary(text)) == d0.(summary := Some(text));
    assert KeptHistory(loaded, d0) == [d0, d0];
  }

  /** The store after loading d0 and the summary edits A then B: the
      history holds d0 twice and then the first edit's document. */
  lemma TwoSummaryEdits(s0: EditorState, d0: CVContent)
    ensures var e1 := ApplyEdit(LoadCV(s0, "cv", d0), UpdateSummary("A"));
      var e2 := ApplyEdit(e1, UpdateSummary("B"));
      && e2.history == [d0, d0, d0.(summary := Some("A"))] && e2.historyIndex == 2
      && e2.cv == Some(d0.(summary := Some("B")))
  {
    OneSummaryEdit(s0, d0, "A");
    var e1 := ApplyEdit(LoadCV(s0, "cv", d0), UpdateSummary("A"));
    var d1 := d0.(summary := Some("A"));
    assert EditContent(d1, UpdateSummary("B")) == d0.(summary := Some("B"));
    assert KeptHistory(e1, d1) == [d0, d0, d1];
  }

  /** As written, two summary edits followed by one undo go back to the
      loaded document, skipping the first edit's summary. */
  lemma UndoSkipsFirstSummaryEdit(s0: EditorState, d0: CVContent)
    ensures var e1 := ApplyEdit(LoadCV(s0, "cv", d0), UpdateSummary("A"));
      var e2 := ApplyEdit(e1, UpdateSummary("B"));
      && e2.cv.Some? && e2.cv.value.summary == Some("B")
      && Undo(e2).cv == Some(d0)
      && (d0.summary != Some("A") ==> Undo(e2).cv.value.summary != Some("A"))
  {
    TwoSummaryEdits(s0, d0);
  }

  /** The corrected push: the redo future is cut off, the INSTALLED document
      is appended, the oldest snapshot is dropped past 50. */
  function PushToHistoryFixed(s: EditorState, newContent: CVContent): (r: EditorState)
    ensures s.cv.None? ==> r == s
    ensures Valid(s) ==> Valid(r)
    ensures Valid(s) && s.cv.Some? ==>
      && r.cv == Some(newContent)
      && |r.history| == Min(s.historyIndex + 2, MaxHistorySize)
      && r.historyIndex == |r.history| - 1
      && r.history[r.historyIndex] == newContent
      && r.history[r.historyIndex - 1] == s.history[s.historyIndex]
  {
    if s.cv.None? then s
    else
      var h := DropOldest(KeptHistory(s, newContent));
      s.(history := h, historyIndex := |h| - 1, cv := Some(newContent))
  }

  /** `Valid`, and the snapshot under the index is the current document. */
  predicate Consistent(s: EditorState) {
    Valid(s) && (s.cv.Some? ==> s.history[s.historyIndex] == s.cv.value)
  }

  /** A section mutator over the corrected push. */
  function ApplyEditFixed(s: EditorState, e: Edit): (r: EditorState)
    ensures s.cv.None? ==> r == s
    ensures Consistent(s) ==> Consistent(r)
    ensures s.cv.Some? ==> r.cv.Some? && AgreeOutside(s.cv.value, r.cv.value, SectionOf(e))
  {
    if s.cv.None? then s else PushToHistoryFixed(s, EditContent(s.cv.value, e))
  }

  /** The store's step with the corrected push. */
  function StepFixed(s: EditorState, a: Action): (r: EditorState)
    ensures Consistent(s) ==> Consistent(r)
    ensures !a.Mutate? ==> r == Step(s, a)
  {
    match a
    case Mutate(e) => ApplyEditFixed(s, e)
    case _ => Step(s, a)
  }

  function RunFixed(s: EditorState, actions: seq<Action>): (r: EditorState)
    ensures Consistent(s) ==> Consistent(r)
    decreases |actions|
  {
    if |actions| == 0 then s else RunFixed(StepFixed(s, actions[0]), actions[1..])
  }

  /** With the corrected push every reachable state is consistent. */
  lemma ReachableStatesAreConsistent(actions: seq<Action>)
    ensures Consistent(RunFixed(InitialState, actions))
  {
  }

  /** With the corrected push, undo after an edit restores the previous
      document and redo restores the edit; more generally redo undoes undo
      on every consistent state undo can act on. */
  lemma UndoRedoRoundTripFixed(s: EditorState, d: CVContent)
    requires Consistent(s) && s.cv.Some?
    ensures Undo(PushToHistoryFixed(s, d)).cv == s.cv
    ensures Redo(Undo(PushToHistoryFixed(s, d))).cv == Some(d)
    ensures Redo(Undo(PushToHistoryFixed(s, d))) == PushToHistoryFixed(s, d)
  {
    RedoUndoesUndo(PushToHistoryFixed(s, d));
  }

  lemma RedoUndoesUndo(s: EditorState)
    requires Consistent(s) && !AtOldest(s)
    ensures Redo(Undo(s)) == s
  {
  }
}

=== FILE: ints.dfy ===
/** Integer helpers shared by the scoring engine and the store. */
module Ints {
  /** `Math.min` on integers. */
  function Min(a: int, b: int): int {
    if a < b then a else b
  }
}

=== FILE: keywords.dfy ===
/** Keyword coverage of a CV: which of a fixed list of professional and
    technical keywords occur in the lower-cased CV text, plus the keywords
    a target role calls for that the CV lacks. The CV text itself (the
    lower-cased JSON rendering of the document) is taken as a parameter. */
module Keywords {
  import opened Wrappers
  import opened Ints
  import Text
  import ListOps

  const CommonKeywords: seq<string> := [
    "leadership", "team", "project management", "agile", "collaboration",
    "communication", "problem solving", "analysis", "strategy", "innovation"
  ]

  const TechnicalKeywords: seq<string> := [
    "javascript", "typescript", "react", "node.js", "python", "sql",
    "aws", "docker", "kubernetes", "git", "api", "testing"
  ]

  const AllRelevantKeywords: seq<string> := CommonKeywords + TechnicalKeywords

  const FrontendKeywords: seq<string> := ["react", "vue", "angular", "css", "responsive design", "webpack"]
  const BackendKeywords: seq<string> := ["api", "database", "microservices", "rest", "graphql", "authentication"]
  const FullstackKeywords: seq<string> := ["react", "node.js", "database", "api", "deployment", "ci/cd"]
  const DevopsKeywords: seq<string> := ["kubernetes", "docker", "ci/cd", "aws", "terraform", "monitoring"]
  const DataKeywords: seq<string> := ["python", "sql", "machine learning", "analytics", "visualization", "etl"]

  /** Number of keywords shown as present, and as missing. */
  const PresentShown := 10
  const MissingShown := 8

  /** `cvText.includes(keyword.toLowerCase())`. */
  predicate Mentions(cvText: string, keyword: string) {
    Text.Contains(cvText, Text.Lower(keyword))
  }

  /** `ks.filter(k => cvText.includes(k.toLowerCase()))`. */
  function PresentIn(cvText: string, ks: seq<string>): (r: seq<string>)
    ensures |r| <= |ks|
    ensures forall i :: 0 <= i < |r| ==> Mentions(cvText, r[i]) && r[i] in ks
    decreases |ks|
  {
    if |ks| == 0 then []
    else (if Mentions(cvText, ks[0]) then [ks[0]] else []) + PresentIn(cvText, ks[1..])
  }

  /** `ks.filter(k => !cvText.includes(k.toLowerCase()))`. */
  function MissingFrom(cvText: string, ks: seq<string>): (r: seq<string>)
    ensures |r| <= |ks|
    ensures forall i :: 0 <= i < |r| ==> !Mentions(cvText, r[i]) && r[i] in ks
    decreases |ks|
  {
    if |ks| == 0 then []
    else (if Mentions(cvText, ks[0]) then [] else [ks[0]]) + MissingFrom(cvText, ks[1..])
  }

  /** The two filters split the keyword list between them, each keeping the
      list's order: every keyword lands in exactly one of the two. */
  lemma {:induction false} PresentAndMissingSplitTheList(cvText: string, ks: seq<string>)
    ensures ListOps.Interleaving(PresentIn(cvText, ks), MissingFrom(cvText, ks), ks)
    ensures |PresentIn(cvText, ks)| + |MissingFrom(cvText, ks)| == |ks|
    decreases |ks|
  {
    if |ks| > 0 {
      PresentAndMissingSplitTheList(cvText, ks[1..]);
      var p := PresentIn(cvText, ks);
      var m := MissingFrom(cvText, ks);
      if Mentions(cvText, ks[0]) {
        assert p[1..] == PresentIn(cvText, ks[1..]);
        assert m == MissingFrom(cvText, ks[1..]);
      } else {
        assert p == PresentIn(cvText, ks[1..]);
        assert m[1..] == MissingFrom(cvText, ks[1..]);
      }
    }
  }

  /** `getRoleSpecificKeywords`: the first role family whose marker occurs in
      the lower-cased role decides the list. */
  function RoleSpecificKeywords(role: string): (r: seq<string>)
    ensures |r| == 0 || |r| == 6
    ensures r == [] <==> !HasRoleMarker(Text.Lower(role))
    ensures r in [[], FrontendKeywords, BackendKeywords, FullstackKeywords, DevopsKeywords, DataKeywords]
  {
    var roleLower := Text.Lower(role);
    if NamesFrontend(roleLower) then FrontendKeywords
    else if NamesBackend(roleLower) then BackendKeywords
    else if NamesFullstack(roleLower) then FullstackKeywords
    else if Text.Contains(roleLower, "devops") then DevopsKeywords
    else if Text.Contains(roleLower, "data") then DataKeywords
    else []
  }

  /** Some role family is named in the (lower-cased) role text. */
  predicate HasRoleMarker(roleLower: string) {
    exists m :: m in RoleMarkers && Text.Contains(roleLower, m)
  }

  const RoleMarkers: set<string> :=
    {"frontend", "front-end", "backend", "back-end", "fullstack", "full-stack", "devops", "data"}

  /** The role text names the front-end family. */
  predicate NamesFrontend(roleLower: string) {
    Text.Contains(roleLower, "frontend") || Text.Contains(roleLower, "front-end")
  }

  /** The role text names the back-end family. */
  predicate NamesBackend(roleLower: string) {
    Text.Contains(roleLower, "backend") || Text.Contains(roleLower, "back-end")
  }

  /** The role text names the full-stack family. */
  predicate NamesFullstack(roleLower: string) {
    Text.Contains(roleLower, "fullstack") || Text.Contains(roleLower, "full-stack")
  }

  /** Each family's markers, in either spelling, select that family's list
      unless an earlier family (front-end, back-end, full-stack, devops,
      data, in that order) is named as well. */
  lemma RoleFamilyPrecedence(role: string)
    ensures var l := Text.Lower(role);
      NamesFrontend(l) ==> RoleSpecificKeywords(role) == FrontendKeywords
    ensures var l := Text.Lower(role);
      !NamesFrontend(l) && NamesBackend(l) ==> RoleSpecificKeywords(role) == BackendKeywords
    ensures var l := Text.Lower(role);
      !NamesFrontend(l) && !NamesBackend(l) && NamesFullstack(l)
      ==> RoleSpecificKeywords(role) == FullstackKeywords
    ensures var l := Text.Lower(role);
      !NamesFrontend(l) && !NamesBackend(l) && !NamesFullstack(l) && Text.Contains(l, "devops")
      ==> RoleSpecificKeywords(role) == DevopsKeywords
    ensures var l := Text.Lower(role);
      !NamesFrontend(l) && !NamesBackend(l) && !NamesFullstack(l) && !Text.Contains(l, "devops")
      && Text.Contains(l, "data")
      ==> RoleSpecificKeywords(role) == DataKeywords
  {
  }

  datatype KeywordOptimization = KeywordOptimization(
    missingKeywords: seq<string>,
    presentKeywords: seq<string>)

  /** The role-specific list consulted for an optional target role: none
      unless a non-empty role is given. */
  function RoleKeywordsFor(targetRole: Option<string>): (r: seq<string>)
    ensures targetRole.None? || targetRole.value == "" ==> r == []
    ensures targetRole.Some? && targetRole.value != "" ==> r == RoleSpecificKeywords(targetRole.value)
  {
    if targetRole.Some? && targetRole.value != "" then RoleSpecificKeywords(targetRole.value) else []
  }

  /** `analyzeKeywords` over a generic keyword list ks and a role list
      roleKs: the first 10 keywords of ks found in the text, and the first 8
      of the misses, role misses listed after the generic ones. */
  function KeywordReport(cvText: string, ks: seq<string>, roleKs: seq<string>): (r: KeywordOptimization)
    ensures |r.presentKeywords| == Min(PresentShown, |PresentIn(cvText, ks)|)
    ensures r.presentKeywords == PresentIn(cvText, ks)[..|r.presentKeywords|]
    ensures forall i :: 0 <= i < |r.presentKeywords| ==>
      Mentions(cvText, r.presentKeywords[i]) && r.presentKeywords[i] in ks
    ensures |r.missingKeywords| <= MissingShown
    ensures forall i :: 0 <= i < |r.missingKeywords| ==>
      !Mentions(cvText, r.missingKeywords[i]) && (r.missingKeywords[i] in ks || r.missingKeywords[i] in roleKs)
    ensures var generic := MissingFrom(cvText, ks);
      && (|generic| >= MissingShown ==> r.missingKeywords == generic[..MissingShown])
      && (|generic| < MissingShown ==> |r.missingKeywords| >= |generic| && r.missingKeywords[..|generic|] == generic)
    ensures var generic := MissingFrom(cvText, ks);
      |generic| < MissingShown ==>
        r.missingKeywords == generic + ListOps.Take(MissingFrom(cvText, roleKs), MissingShown - |generic|)
    ensures roleKs == [] ==> r.missingKeywords == ListOps.Take(MissingFrom(cvText, ks), MissingShown)
  {
    var present := PresentIn(cvText, ks);
    var generic := MissingFrom(cvText, ks);
    var missing := generic + MissingFrom(cvText, roleKs);
    ListOps.TakeOfAppend(generic, MissingFrom(cvText, roleKs), MissingShown);
    assert roleKs == [] ==> missing == generic;
    KeywordOptimization(ListOps.Take(missing, MissingShown), ListOps.Take(present, PresentShown))
  }

  /** `analyzeKeywords` with the repository's 22 generic keywords: the first
      10 of them found in the text, and the first 8 misses, where a target
      role adds its own family's misses after the generic ones. */
  function AnalyzeKeywords(cvText: string, targetRole: Option<string>): (r: KeywordOptimization)
    ensures r.presentKeywords == ListOps.Take(PresentIn(cvText, AllRelevantKeywords), PresentShown)
    ensures forall i :: 0 <= i < |r.presentKeywords| ==>
      Mentions(cvText, r.presentKeywords[i]) && r.presentKeywords[i] in AllRelevantKeywords
    ensures |r.missingKeywords| <= MissingShown
    ensures forall i :: 0 <= i < |r.missingKeywords| ==>
      !Mentions(cvText, r.missingKeywords[i])
      && (r.missingKeywords[i] in AllRelevantKeywords || r.missingKeywords[i] in RoleKeywordsFor(targetRole))
    ensures targetRole.None? || targetRole.value == "" ==>
      r.missingKeywords == ListOps.Take(MissingFrom(cvText, AllRelevantKeywords), MissingShown)
    ensures var generic := MissingFrom(cvText, AllRelevantKeywords);
      |generic| >= MissingShown ==> r.missingKeywords == generic[..MissingShown]
    ensures var generic := MissingFrom(cvText, AllRelevantKeywords);
      |generic| < MissingShown ==>
        r.missingKeywords == generic + ListOps.Take(MissingFrom(cvText, RoleKeywordsFor(targetRole)), MissingShown - |generic|)
  {
    KeywordReport(cvText, AllRelevantKeywords, RoleKeywordsFor(targetRole))
  }

}

=== FILE: list_ops.dfy ===
/** The JavaScript array operations the editor store and the keyword
    analysis rely on, with their index conventions: `slice(0, end)`,
    `filter((_, i) => i !== index)`, the two `splice` calls of an array
    move, `slice` truncation, and an order-keeping split of a list. */
module ListOps {

  /** How `slice`/`splice` read a position argument against length n:
      negative positions count from the end, and both ends are clamped. */
  function RelIndex(k: int, n: nat): (r: nat)
    ensures r <= n
    ensures 0 <= k <= n ==> r == k
    ensures k < 0 && n + k >= 0 ==> r == n + k
    ensures k > n ==> r == n
    ensures k + n < 0 ==> r == 0
  {
    if k < 0 then (if n + k < 0 then 0 else n + k) else (if k > n then n else k)
  }

  /** `s.slice(0, end)`. */
  function SliceTo<T>(s: seq<T>, end: int): (r: seq<T>)
    ensures |r| <= |s| && r == s[..|r|]
    ensures 0 <= end <= |s| ==> |r| == end
    ensures end > |s| ==> r == s
  {
    s[..RelIndex(end, |s|)]
  }

  /** `s.slice(0, n)` for a non-negative count: the first n elements, or all
      of them when there are fewer. */
  function Take<T>(s: seq<T>, n: nat): (r: seq<T>)
    ensures |r| == if |s| < n then |s| else n
    ensures r == s[..|r|]
  {
    SliceTo(s, n)
  }

  /** The empty list is a left unit of concatenation. */
  lemma EmptyPrefix<T>(s: seq<T>)
    ensures [] + s == s
  {
  }

  /** Truncating a concatenation: a long enough first part fills the whole
      window, otherwise it comes first in it. */
  lemma TakeOfAppend<T>(a: seq<T>, b: seq<T>, n: nat)
    ensures |a| >= n ==> Take(a + b, n) == a[..n]
    ensures |a| < n ==> Take(a + b, n)[..|a|] == a
    ensures |a| < n ==> Take(a + b, n) == a + Take(b, n - |a|)
  {
    var r := Take(a + b, n);
    if |a| >= n {
      assert r == (a + b)[..n];
      assert (a + b)[..n] == a[..n];
    } else {
      assert r[..|a|] == (a + b)[..|a|];
      assert (a + b)[..|a|] == a;
      var t := Take(b, n - |a|);
      assert |r| == |a| + |t|;
      forall j | 0 <= j < |r|
        ensures r[j] == (a + t)[j]
      {
        if j >= |a| {
          assert r[j] == (a + b)[j] == b[j - |a|];
        }
      }
    }
  }

  /** `s.filter((_, j) => j !== i)`, walking s from the front. */
  function DeleteAt<T>(s: seq<T>, i: int): (r: seq<T>)
    ensures 0 <= i < |s| ==> |r| == |s| - 1
    ensures 0 <= i < |s| ==> forall j :: 0 <= j < i ==> r[j] == s[j]
    ensures 0 <= i < |s| ==> forall j :: i <= j < |r| ==> r[j] == s[j + 1]
    ensures !(0 <= i < |s|) ==> r == s
    decreases |s|
  {
    if |s| == 0 then []
    else
      var kept := DeleteAt(s[..|s| - 1], i);
      if i == |s| - 1 then kept else kept + [s[|s| - 1]]
  }

  /** Removing position i leaves the elements on either side, in order. */
  lemma {:induction false} DeleteAtSplits<T>(s: seq<T>, i: int)
    requires 0 <= i < |s|
    ensures DeleteAt(s, i) == s[..i] + s[i + 1..]
    ensures multiset(DeleteAt(s, i)) + multiset{s[i]} == multiset(s)
  {
    var d := DeleteAt(s, i);
    var e := s[..i] + s[i + 1..];
    assert |d| == |e|;
    forall j | 0 <= j < |d| ensures d[j] == e[j] {
      if j < i {
        assert e[j] == s[j];
      } else {
        assert e[j] == s[j + 1];
      }
    }
    assert d == e;
    calc {
      multiset(s);
      { assert s == s[..i] + ([s[i]] + s[i + 1..]); }
      multiset(s[..i]) + multiset([s[i]] + s[i + 1..]);
      multiset(s[..i]) + multiset{s[i]} + multiset(s[i + 1..]);
      multiset(e) + multiset{s[i]};
    }
  }

  /** `s[i] = x` for an index inside the array. */
  function ReplaceAt<T>(s: seq<T>, i: int, x: T): (r: seq<T>)
    requires 0 <= i < |s|
    ensures |r| == |s| && r[i] == x
    ensures forall j :: 0 <= j < |s| && j != i ==> r[j] == s[j]
  {
    s[i := x]
  }

  /** The array `s` with position f taken out and its element put back at
      position t of what remains. */
  function Reinsert<T>(s: seq<T>, f: nat, t: nat): seq<T>
    requires f < |s| && t <= |s| - 1
  {
    var rest := s[..f] + s[f + 1..];
    rest[..t] + [s[f]] + rest[t..]
  }

  lemma {:induction false} ReinsertFacts<T>(s: seq<T>, f: nat, t: nat)
    requires f < |s| && t <= |s| - 1
    ensures |Reinsert(s, f, t)| == |s|
    ensures multiset(Reinsert(s, f, t)) == multiset(s)
    ensures Reinsert(s, f, t)[t] == s[f]
    ensures DeleteAt(Reinsert(s, f, t), t) == DeleteAt(s, f)
  {
    var rest := s[..f] + s[f + 1..];
    var r := Reinsert(s, f, t);
    DeleteAtSplits(s, f);
    assert DeleteAt(s, f) == rest;
    DeleteAtSplits(r, t);
    assert r[..t] == rest[..t];
    assert r[t + 1..] == rest[t..];
    assert rest == rest[..t] + rest[t..];
    assert DeleteAt(r, t) == rest;
    calc {
      multiset(r);
      multiset(rest[..t] + [s[f]] + rest[t..]);
      multiset(rest[..t]) + multiset{s[f]} + multiset(rest[t..]);
      multiset(rest[..t] + rest[t..]) + multiset{s[f]};
      multiset(rest) + multiset{s[f]};
      multiset(s);
    }
  }

  /** `const [m] = a.splice(from, 1); a.splice(to, 0, m)` on a copy of s.
      When `from` names no element the first splice removes nothing; that
      case (which would insert `undefined`) leaves s as it is. */
  function Move<T>(s: seq<T>, from: int, to: int): (r: seq<T>)
    ensures |r| == |s|
    ensures multiset(r) == multiset(s)
    ensures RelIndex(from, |s|) < |s| ==>
      var f := RelIndex(from, |s|);
      var t := RelIndex(to, |s| - 1);
      r[t] == s[f] && DeleteAt(r, t) == DeleteAt(s, f)
    ensures RelIndex(from, |s|) == |s| ==> r == s
  {
    var f := RelIndex(from, |s|);
    if f == |s| then s
    else
      var t := RelIndex(to, |s| - 1);
      ReinsertFacts(s, f, t);
      Reinsert(s, f, t)
  }

  /** With both indices inside the list, moving is a permutation that puts
      the moved element at `to` and keeps the others in their old order. */
  lemma {:induction false} MoveWithinBounds<T>(s: seq<T>, from: int, to: int)
    requires 0 <= from < |s| && 0 <= to < |s|
    ensures |Move(s, from, to)| == |s| && multiset(Move(s, from, to)) == multiset(s)
    ensures Move(s, from, to)[to] == s[from]
    ensures DeleteAt(Move(s, from, to), to) == DeleteAt(s, from)
  {
    assert RelIndex(from, |s|) == from;
    assert RelIndex(to, |s| - 1) == to;
  }

  /** c is an order-keeping merge of a and b: every element of c comes from
      exactly one of them, and each of a and b appears in c in its own order. */
  predicate Interleaving<T(==)>(a: seq<T>, b: seq<T>, c: seq<T>)
    decreases |c|
  {
    if |c| == 0 then a == [] && b == []
    else
      (|a| > 0 && a[0] == c[0] && Interleaving(a[1..], b, c[1..]))
      || (|b| > 0 && b[0] == c[0] && Interleaving(a, b[1..], c[1..]))
  }

  /** An interleaving shares out the elements of c between a and b. */
  lemma {:induction false} InterleavingSharesOut<T>(a: seq<T>, b: seq<T>, c: seq<T>)
    requires Interleaving(a, b, c)
    ensures multiset(a) + multiset(b) == multiset(c)
    ensures |a| + |b| == |c|
    decreases |c|
  {
    if |c| > 0 {
      assert c == [c[0]] + c[1..];
      if |a| > 0 && a[0] == c[0] && Interleaving(a[1..], b, c[1..]) {
        InterleavingSharesOut(a[1..], b, c[1..]);
        assert a == [a[0]] + a[1..];
      } else {
        InterleavingSharesOut(a, b[1..], c[1..]);
        assert b == [b[0]] + b[1..];
      }
    }
  }
}

=== FILE: store_history.dfy ===
/** What the undo history holds after a document is loaded and edited k
    times, as the store is written: each edit records the document it
    replaces, so the history is the loaded document twice followed by every
    version but the current one. */
module StoreHistory {
  import opened Wrappers
  import opened Ints
  import opened CvContent
  import opened EditorStore

  /** Installs the documents of ds one after another through `pushToHistory`. */
  function PushAll(s: EditorState, ds: seq<CVContent>): (r: EditorState)
    ensures Valid(s) ==> Valid(r)
    decreases |ds|
  {
    if |ds| == 0 then s else PushToHistory(PushAll(s, ds[..|ds| - 1]), ds[|ds| - 1])
  }

  /** The documents in the order they were current: the loaded one, then
      each edit's result. */
  function Versions(d0: CVContent, ds: seq<CVContent>): seq<CVContent> {
    [d0] + ds
  }

  /** The snapshots recorded, oldest first, before the 50-entry cap: the
      loaded document (from `loadCV`), then each version an edit replaced. */
  function Recorded(d0: CVContent, ds: seq<CVContent>): (r: seq<CVContent>)
    ensures |r| == |ds| + 1
  {
    [d0] + Versions(d0, ds)[..|ds|]
  }

  /** Appending to a suffix of a gives the matching suffix of a + [x]. */
  lemma SuffixThenAppend<T>(a: seq<T>, m: nat, x: T)
    requires m <= |a|
    ensures a[|a| - m..] + [x] == (a + [x])[|a| + 1 - (m + 1)..]
  {
  }

  /** A suffix of a suffix of a is a suffix of a. */
  lemma SuffixOfSuffix<T>(a: seq<T>, m: nat, n: nat)
    requires n <= m <= |a|
    ensures a[|a| - m..][m - n..] == a[|a| - n..]
  {
  }

  /** One push onto a history that is the newest part of `full`, with the
      index on its newest entry, leaves the newest part of full + [current]. */
  lemma PushKeepsNewest(p: EditorState, full: seq<CVContent>, d: CVContent)
    requires Valid(p) && p.cv.Some? && p.historyIndex == |p.history| - 1
    requires |p.history| <= |full| && p.history == full[|full| - |p.history|..]
    ensures var r := PushToHistory(p, d); var full' := full + [p.cv.value];
      && r.cv == Some(d)
      && |r.history| == Min(|p.history| + 1, MaxHistorySize)
      && r.historyIndex == |r.history| - 1
      && r.history == full'[|full'| - |r.history|..]
  {
    var m := |p.history|;
    var c := p.cv.value;
    var r := PushToHistory(p, d);
    var full' := full + [c];
    assert p.history[..p.historyIndex + 1] == p.history;
    SuffixThenAppend(full, m, c);
    SuffixOfSuffix(full', m + 1, |r.history|);
  }

  /** One more edit records the version it replaces. */
  lemma RecordedGrows(d0: CVContent, ds: seq<CVContent>)
    requires |ds| > 0
    ensures Recorded(d0, ds) == Recorded(d0, ds[..|ds| - 1]) + [Versions(d0, ds[..|ds| - 1])[|ds| - 1]]
  {
    var front := ds[..|ds| - 1];
    assert Versions(d0, ds)[..|ds|] == Versions(d0, front)[..|ds| - 1] + [Versions(d0, front)[|ds| - 1]];
  }

  /** s is the store after `loadCV(d0)` and the edits producing ds: the
      current document is the last version, the history holds
      min(k + 1, 50) snapshots with the index on the newest, and they are the
      newest entries of `Recorded`. */
  predicate AfterEdits(s: EditorState, d0: CVContent, ds: seq<CVContent>) {
    var full := Recorded(d0, ds);
    && Valid(s)
    && s.cv == Some(Versions(d0, ds)[|ds|])
    && |s.history| == Min(|ds| + 1, MaxHistorySize)
    && s.historyIndex == |s.history| - 1
    && s.history == full[|full| - |s.history|..]
  }

  /** One further edit keeps the description true. */
  lemma EditExtendsHistory(p: EditorState, d0: CVContent, ds: seq<CVContent>)
    requires |ds| > 0 && AfterEdits(p, d0, ds[..|ds| - 1])
    ensures AfterEdits(PushToHistory(p, ds[|ds| - 1]), d0, ds)
  {
    var front := ds[..|ds| - 1];
    PushKeepsNewest(p, Recorded(d0, front), ds[|ds| - 1]);
    RecordedGrows(d0, ds);
    assert Versions(d0, ds)[|ds|] == ds[|ds| - 1];
  }

  /** The history after loading d0 and making the edits that produce ds. */
  lemma {:induction false} HistoryAfterEdits(s0: EditorState, id: string, d0: CVContent, ds: seq<CVContent>)
    ensures AfterEdits(PushAll(LoadCV(s0, id, d0), ds), d0, ds)
    decreases |ds|
  {
    if |ds| > 0 {
      HistoryAfterEdits(s0, id, d0, ds[..|ds| - 1]);
      EditExtendsHistory(PushAll(LoadCV(s0, id, d0), ds[..|ds| - 1]), d0, ds);
    } else {
      assert Recorded(d0, ds) == [d0];
    }
  }

  /** After k >= 1 edits the two newest snapshots are the versions one and
      two edits back (the loaded document standing in for "two back" after a
      single edit). */
  lemma NewestSnapshots(s: EditorState, d0: CVContent, ds: seq<CVContent>)
    requires |ds| >= 1 && AfterEdits(s, d0, ds)
    ensures |s.history| >= 2
    ensures s.history[|s.history| - 1] == Versions(d0, ds)[|ds| - 1]
    ensures s.history[|s.history| - 2] == Versions(d0, ds)[if |ds| >= 2 then |ds| - 2 else 0]
  {
    var full := Recorded(d0, ds);
    var n := |s.history|;
    assert s.history[n - 2] == full[|full| - 2];
    assert s.history[n - 1] == full[|full| - 1];
  }

  /** Undo after k >= 1 edits lands on the version two edits back (the loaded
      document for k <= 2), not on the one the last edit replaced; redo then
      shows the version before the current one. */
  lemma UndoAfterEdits(s: EditorState, d0: CVContent, ds: seq<CVContent>)
    requires |ds| >= 1 && AfterEdits(s, d0, ds)
    ensures Undo(s).cv == Some(Versions(d0, ds)[if |ds| >= 2 then |ds| - 2 else 0])
    ensures Redo(Undo(s)).cv == Some(Versions(d0, ds)[|ds| - 1])
  {
    NewestSnapshots(s, d0, ds);
    UndoRedoAtNewest(s);
  }

  /** From the newest of at least two snapshots, undo shows the one before
      and redo then shows the newest again. */
  lemma UndoRedoAtNewest(s: EditorState)
    requires Valid(s) && |s.history| >= 2 && s.historyIndex == |s.history| - 1
    ensures Undo(s).cv == Some(s.history[|s.history| - 2])
    ensures Redo(Undo(s)).cv == Some(s.history[|s.history| - 1])
  {
  }
}

=== FILE: text.dfy ===
/** Character and string helpers used by the scoring engine: whitespace,
    ASCII lower-casing, substring search, digit search, the
    `split(/\s+/).length` word count and decimal rendering of counts. */
module Text {

  /** ASCII part of JavaScript's `\s` class (and of what `trim` strips). */
  predicate IsSpace(c: char) {
    c == ' ' || c == '\t' || c == '\n' || c == '\r' || c == '\U{000B}' || c == '\U{000C}'
  }

  predicate IsDigit(c: char) {
    '0' <= c <= '9'
  }

  /** `s.trim().length === 0`: every character is whitespace. */
  predicate IsBlank(s: string) {
    forall i :: 0 <= i < |s| ==> IsSpace(s[i])
  }

  function LowerChar(c: char): char {
    if 'A' <= c <= 'Z' then (c as int + 32) as char else c
  }

  /** ASCII `toLowerCase`. */
  function Lower(s: string): (r: string)
    ensures |r| == |s|
    ensures forall i :: 0 <= i < |s| ==> r[i] == LowerChar(s[i])
  {
    seq(|s|, i requires 0 <= i < |s| => LowerChar(s[i]))
  }

  predicate StartsWith(s: string, p: string) {
    |p| <= |s| && s[..|p|] == p
  }

  /** `s.includes(p)`: p occurs in s at some position. */
  predicate Contains(s: string, p: string)
    decreases |s|
  {
    StartsWith(s, p) || (|s| > 0 && Contains(s[1..], p))
  }

  /** p occurs in s starting at offset k. */
  predicate OccursAt(s: string, p: string, k: int) {
    0 <= k && k + |p| <= |s| && s[k..k + |p|] == p
  }

  /** An occurrence at any offset is found by the left-to-right search. */
  lemma {:induction false} ContainsFromOccurrence(s: string, p: string, k: int)
    requires OccursAt(s, p, k)
    ensures Contains(s, p)
    decreases k
  {
    if k == 0 {
      assert s[..|p|] == s[0..0 + |p|];
    } else {
      var tail := s[1..];
      assert tail[k - 1..k - 1 + |p|] == s[k..k + |p|];
      ContainsFromOccurrence(tail, p, k - 1);
    }
  }

  /** What the search finds is an occurrence at some offset. */
  lemma {:induction false} OccurrenceFromContains(s: string, p: string) returns (k: int)
    requires Contains(s, p)
    ensures OccursAt(s, p, k)
    decreases |s|
  {
    if StartsWith(s, p) {
      k := 0;
    } else {
      var tail := s[1..];
      var k' := OccurrenceFromContains(tail, p);
      assert s[k' + 1..k' + 1 + |p|] == tail[k'..k' + |p|];
      k := k' + 1;
    }
  }

  /** Contains holds exactly when p occurs at some offset of s. */
  lemma ContainsIff(s: string, p: string)
    ensures Contains(s, p) <==> exists k :: OccursAt(s, p, k)
  {
    if Contains(s, p) {
      var k := OccurrenceFromContains(s, p);
    }
    forall k | OccursAt(s, p, k) ensures Contains(s, p) {
      ContainsFromOccurrence(s, p, k);
    }
  }

  /** Some character of s is a decimal digit. */
  predicate HasDigit(s: string) {
    exists i :: 0 <= i < |s| && IsDigit(s[i])
  }

  /** Where the regular expression `/\d+%?|\$\d+/` can start a match in s. */
  predicate NumberPatternAt(s: string, i: int)
    requires 0 <= i < |s|
  {
    IsDigit(s[i]) || (s[i] == '$' && i + 1 < |s| && IsDigit(s[i + 1]))
  }

  /** `/\d+%?|\$\d+/.test(s)`. */
  predicate MatchesNumberPattern(s: string) {
    exists i :: 0 <= i < |s| && NumberPatternAt(s, i)
  }

  /** The `\$\d+` alternative adds nothing: the pattern matches exactly the
      strings that hold a digit. */
  lemma NumberPatternIsDigitSearch(s: string)
    ensures MatchesNumberPattern(s) <==> HasDigit(s)
  {
    if MatchesNumberPattern(s) {
      var i :| 0 <= i < |s| && NumberPatternAt(s, i);
      if !IsDigit(s[i]) {
        assert IsDigit(s[i + 1]);
      }
    }
    if HasDigit(s) {
      var i :| 0 <= i < |s| && IsDigit(s[i]);
      assert NumberPatternAt(s, i);
    }
  }

  /** Position i begins a maximal run of whitespace. */
  predicate IsRunStart(s: string, i: int)
    requires 0 <= i < |s|
  {
    IsSpace(s[i]) && (i == 0 || !IsSpace(s[i - 1]))
  }

  /** Number of maximal whitespace runs in s, counted left to right. */
  function SpaceRuns(s: string): (n: nat)
    ensures n <= |s|
    decreases |s|
  {
    if |s| == 0 then 0
    else SpaceRuns(s[..|s| - 1]) + (if IsRunStart(s, |s| - 1) then 1 else 0)
  }

  /** `s.split(/\s+/).length`: the pieces between whitespace runs, leading
      and trailing empty pieces included. */
  function WordCount(s: string): (n: nat)
    ensures 1 <= n <= |s| + 1
  {
    1 + SpaceRuns(s)
  }

  /** Gluing two strings merges a run that straddles the seam. */
  lemma {:induction false} SpaceRunsAppend(a: string, b: string)
    ensures SpaceRuns(a + b) ==
      SpaceRuns(a) + SpaceRuns(b)
      - (if |a| > 0 && |b| > 0 && IsSpace(a[|a| - 1]) && IsSpace(b[0]) then 1 else 0)
    decreases |b|
  {
    if |b| == 0 {
      assert a + b == a;
    } else {
      var b' := b[..|b| - 1];
      SpaceRunsAppend(a, b');
      assert (a + b)[..|a + b| - 1] == a + b';
      var last := |a + b| - 1;
      if |b'| > 0 {
        assert (a + b)[last - 1] == b[|b| - 2];
        assert b'[0] == b[0];
      }
    }
  }

  /** A string without whitespace has no whitespace runs. */
  lemma {:induction false} SpaceRunsOfWord(w: string)
    requires forall i :: 0 <= i < |w| ==> !IsSpace(w[i])
    ensures SpaceRuns(w) == 0
    decreases |w|
  {
    if |w| > 0 {
      SpaceRunsOfWord(w[..|w| - 1]);
    }
  }

  /** A non-empty token with no whitespace in it. */
  predicate IsWord(w: string) {
    |w| > 0 && forall i :: 0 <= i < |w| ==> !IsSpace(w[i])
  }

  /** Words joined by single spaces. */
  function JoinWords(ws: seq<string>): string
    requires |ws| > 0
    decreases |ws|
  {
    if |ws| == 1 then ws[0] else ws[0] + " " + JoinWords(ws[1..])
  }

  lemma {:induction false} JoinWordsStartsWithWord(ws: seq<string>)
    requires |ws| > 0 && forall k :: 0 <= k < |ws| ==> IsWord(ws[k])
    ensures IsWord(ws[0]) && |JoinWords(ws)| > 0 && JoinWords(ws)[0] == ws[0][0]
  {
    assert IsWord(ws[0]);
  }

  /** Splitting on whitespace recovers the number of words that were joined. */
  lemma {:induction false} WordCountOfJoin(ws: seq<string>)
    requires |ws| > 0 && forall k :: 0 <= k < |ws| ==> IsWord(ws[k])
    ensures WordCount(JoinWords(ws)) == |ws|
    decreases |ws|
  {
    assert IsWord(ws[0]);
    SpaceRunsOfWord(ws[0]);
    if |ws| > 1 {
      var rest := ws[1..];
      assert forall k :: 0 <= k < |rest| ==> IsWord(rest[k]) by {
        forall k | 0 <= k < |rest| ensures IsWord(rest[k]) {
          assert rest[k] == ws[k + 1];
        }
      }
      WordCountOfJoin(rest);
      JoinWordsStartsWithWord(rest);
      assert IsWord(rest[0]);
      var head := ws[0] + " ";
      SpaceRunsAppend(ws[0], " ");
      assert SpaceRuns(" ") == 1;
      assert SpaceRuns(head) == 1;
      assert JoinWords(ws) == head + JoinWords(rest);
      SpaceRunsAppend(head, JoinWords(rest));
    }
  }

  function DigitChar(d: nat): char
    requires d < 10
  {
    ('0' as int + d) as char
  }

  /** Decimal rendering of a count, as template-literal interpolation does. */
  function DecimalString(n: nat): (r: string)
    ensures |r| > 0
    ensures forall i :: 0 <= i < |r| ==> IsDigit(r[i])
    decreases n
  {
    if n < 10 then [DigitChar(n)] else DecimalString(n / 10) + [DigitChar(n % 10)]
  }

  /** Value of a string of decimal digits. */
  function DecimalValue(s: string): nat
    requires forall i :: 0 <= i < |s| ==> IsDigit(s[i])
    decreases |s|
  {
    if |s| == 0 then 0
    else
      var last := s[|s| - 1];
      assert IsDigit(last);
      10 * DecimalValue(s[..|s| - 1]) + (last as int - '0' as int)
  }

  /** The rendering is faithful: reading the digits back gives the count. */
  lemma {:induction false} DecimalRoundTrip(n: nat)
    ensures DecimalValue(DecimalString(n)) == n
    decreases n
  {
    if n >= 10 {
      DecimalRoundTrip(n / 10);
      var s := DecimalString(n);
      assert s[..|s| - 1] == DecimalString(n / 10);
    }
  }
}

=== FILE: undo_redo_keys.dfy ===
/** The undo/redo hook: whether undo and redo are available, and which of
    them a keydown event triggers. */
module UndoRedoKeys {
  import opened EditorStore

  /** `canUndo`: the index is past the oldest snapshot. */
  predicate CanUndo(s: EditorState) {
    s.historyIndex > 0
  }

  /** `canRedo`: the index is before the newest snapshot. */
  predicate CanRedo(s: EditorState) {
    s.historyIndex < |s.history| - 1
  }

  /** The availability flags are exactly the negations of the store's
      no-op guards: undo (redo) changes the state precisely when it is
      reported available. */
  lemma AvailabilityMatchesGuards(s: EditorState)
    requires Valid(s)
    ensures CanUndo(s) <==> !AtOldest(s)
    ensures CanRedo(s) <==> !AtNewest(s)
    ensures CanUndo(s) <==> Undo(s) != s
    ensures CanRedo(s) <==> Redo(s) != s
  {
  }

  /** The fields of a keyboard event the handler reads. */
  datatype KeyEvent = KeyEvent(key: string, ctrlKey: bool, metaKey: bool, shiftKey: bool)

  datatype Command = UndoCommand | RedoCommand

  /** The commands the keydown handler issues, in order: with Ctrl or Cmd
      held, `z` without Shift undoes when undo is available, and Shift with
      `z`/`Z`, or `y`, redoes when redo is available. */
  function KeyCommands(ev: KeyEvent, canUndo: bool, canRedo: bool): (r: seq<Command>)
    ensures |r| <= 1
    ensures !(ev.ctrlKey || ev.metaKey) ==> r == []
    ensures r == [UndoCommand] <==>
      (ev.ctrlKey || ev.metaKey) && ev.key == "z" && !ev.shiftKey && canUndo
    ensures r == [RedoCommand] <==>
      (ev.ctrlKey || ev.metaKey) && canRedo
      && (((ev.key == "z" || ev.key == "Z") && ev.shiftKey) || ev.key == "y")
    ensures UndoCommand in r ==> canUndo
    ensures RedoCommand in r ==> canRedo
  {
    if !(ev.ctrlKey || ev.metaKey) then []
    else
      assert "z"[0] != "y"[0];
      var undo := if ev.key == "z" && !ev.shiftKey && canUndo then [UndoCommand] else [];
      var redo := if ((ev.key == "z" || ev.key == "Z") && ev.shiftKey && canRedo) || (ev.key == "y" && canRedo)
                  then [RedoCommand] else [];
      assert undo == [] || redo == [];
      assert undo + [] == undo && [] + redo == redo;
      undo + redo
  }

  /** The hook's keydown handler with the flags read from the store state:
      it moves the index by at most one and never touches the history. */
  function HandleKeyDown(s: EditorState, ev: KeyEvent): (r: EditorState)
    ensures Valid(s) ==> Valid(r)
    ensures r.history == s.history
    ensures s.historyIndex - 1 <= r.historyIndex <= s.historyIndex + 1
    ensures !(ev.ctrlKey || ev.metaKey) ==> r == s
    ensures KeyCommands(ev, CanUndo(s), CanRedo(s)) == [] ==> r == s
    ensures (ev.ctrlKey || ev.metaKey) && ev.key == "z" && !ev.shiftKey ==> r == Undo(s)
    ensures (ev.ctrlKey || ev.metaKey) && (ev.key == "y" || ((ev.key == "z" || ev.key == "Z") && ev.shiftKey)) ==> r == Redo(s)
  {
    var cs := KeyCommands(ev, CanUndo(s), CanRedo(s));
    if cs == [] then s else if cs[0] == UndoCommand then Undo(s) else Redo(s)
  }
}

=== FILE: wrappers.dfy ===
/** Optional values: the model's stand-in for TypeScript's `T | undefined`
    (and for `null` in the editor store). */
module Wrappers {

  datatype Option<+T> = None | Some(value: T) {

    /** Returns the value held in Some, or the default when None. */
    function GetOr(default: T): T {
      match this
      case Some(v) => v
      case None => default
    }
  }
}
